=== FILE: README.md ===
# EquationParser evaluator, modelled in Dafny

`equation.py` evaluates arithmetic expressions given as text, such as
`2*x + sin(30) - (y/4)^2`, with the variables passed as keyword arguments. It works in two
stages.

- **Construction** (`Equation.__init__`) runs in four steps:
  - a stack scan finds the top-level parenthesis groups, and each group's interior is built
    recursively as a child equation;
  - the names `sin`, `cos`, `tan` and `abs` are rewritten to the codes `@0`..`@3`;
  - each group's original text is replaced by a reference token `{k`;
  - the result is split on single spaces into signed terms.
- **Evaluation** (`Equation.get_value`, `Term.get_value`, `__evaluate_component`,
  `__evaluate_sub_eqn`) runs in three steps:
  - each term is cut at `*` and `/` and folded from left to right;
  - each operand is dispatched on its shape: power, function code, sub-equation reference,
    variable, or literal;
  - the term values are summed.

The model follows the code branch for branch, with one deliberate exception: the literal
branch uses the corrected form of line 69 (see "## Findings"). Its modules are:

- `Results`: `Option`, `Result`, and the error kinds. These are `InvalidComponent`,
  `UndefinedVariable(name)`, `ValueUndefined` (a division by zero), and `Crash`, which stands
  for any other uncaught Python exception (an IndexError, a ValueError from `int()`, or a
  TypeError on `None`).
- `Text`: Python `str.replace`, `str.split` and `str.isalpha` on `seq<char>`.
- `Numbers`: `"%i"` formatting, and the `int()` and `float()` readings of decimal text.
- `Brackets`: the parenthesis scan of lines 89-102.
- `Construction`: the `Term` and `Equation` datatypes and `Build`, which models
  `Equation(exp)`.
- `Evaluation`: the evaluator. Its values are `Val = Num(x) | NoValue`, where `NoValue` is
  the `None` returned for function codes 4-9.
- `Laws`: reference definitions for the evaluator and the lemmas connecting the two:
  - the unique alternating split of a term;
  - a left fold over operand values;
  - an in-order sum of term results where the first failure wins;
  - the dispatch of every component shape.

Floating point is modelled as `real`. `math.pi`, `sin`, `cos`, `tan` and `**` are fields of
a `MathLib` parameter, so nothing is assumed about their values. Only the error cases of
`**` are modelled, because they decide the error kind.

## Model

| member | source | states |
|---|---|---|
| Brackets.Scan | equation.py:92-102 | The scan fails exactly when some prefix closes more parentheses than it opened. On success, each recorded span is a top-level group, the spans are in left-to-right order, and every top-level group is recorded. |
| Brackets.ScanGroups | equation.py:89-102 | Started on an empty stack, the scan gives `None` iff a `)` has nothing to close. Otherwise it gives all top-level groups, each exactly once, in closing order. |
| Brackets.GroupIsBalanced | equation.py:96-101 | A recorded group's text starts with `(` and ends with the `)` that balances it. It is balanced as a whole, and every proper non-empty prefix of it is still open. |
| Construction.Interior | equation.py:102 | A child is built from the group's interior, which is exactly two characters shorter than the group, so construction recursion terminates. |
| Text.ReplaceAllFirst | equation.py:104-114 | `str.replace` keeps the text before the first occurrence and turns that occurrence into the replacement. It resumes after the occurrence, so replaced occurrences never overlap. |
| Text.ReplaceAllAbsent | equation.py:104-114 | `str.replace` leaves a text without the pattern unchanged. |
| Text.ReplaceAllRemovesPattern | equation.py:104-114 | When pattern and replacement cannot run into each other, no occurrence of the pattern is left afterwards. |
| Construction.RewriteRemovesNames | equation.py:104-107 | After the four rewrites, none of `sin`, `cos`, `tan` and `abs` occurs, because the codes contain no letters. A text holding none of them is unchanged. |
| Construction.RewriteShortens | equation.py:104-111 | The rewritten text is never longer than the expression, so the index loop of lines 109-111 stays in range. |
| Construction.ReplaceGroupsRemoves | equation.py:113-114 | Replacing group k by `{k` for k = 0, 1, … leaves no occurrence of any group text that has no `{`. No replacement brings back a function name, or the text of an earlier group that has no `{`. |
| Construction.FormatRewrites | equation.py:104-114 | The formatted text has no function names. It has no verbatim copy of any recorded group whose text holds no `{`. |
| Text.JoinSplit | equation.py:116 | Joining the fields of `split(" ")` with the separator gives back the text. |
| Text.SplitJoin | equation.py:116 | Splitting a join of separator-free fields gives back the fields. |
| Construction.PairTerms | equation.py:126-128 | Tokens are taken in (sign, body) pairs. The term is positive iff the sign token is exactly `+`, and an unpaired last token is dropped. |
| Construction.MakeTerms | equation.py:116-128 | The first term is negative iff its token starts with `-`, and then its text drops that `-`. Later term k has text token 2k and sign token 2k-1. An empty first token is the IndexError of line 121. |
| Construction.Build | equation.py:82-128 | Construction fails only by crashing, and always does on an unbalanced `)`. A built equation has at least one term and one child per top-level group. |
| Construction.BuildChildren | equation.py:100-102 | The children are built in recording order, child j from group j's interior, and the first crashing child aborts. |
| Construction.BuildChildrenFromGroups | equation.py:102 | Child k of a built equation is the equation built from the interior of the k-th top-level group. |
| Construction.BuildTermsRewritten | equation.py:104-128 | Every term of a built equation is free of spaces and of the four function names. |
| Numbers.Decimal | equation.py:114 | `"%i" % k` is a non-empty digit string with no leading zero that denotes k. |
| Numbers.ParseIntDecimal | equation.py:72 | `int()` reads a reference index `{k` back as k, and `{-k` as -k. |
| Numbers.ParseNumberDecimal | equation.py:67 | `float()` reads a formatted natural number back as the same number. |
| Numbers.ParseNumberFraction | equation.py:67 | `float()` reads `w.f` as `w + f / 10^len(f)`. |
| Numbers.NumberShape | equation.py:42-67 | A literal `float()` accepts is made of digits, `.` and a leading sign, and is not alphabetic. So it never reaches the power, call, reference or variable branches. |
| Evaluation.SplitComponents | equation.py:19-26 | The component list alternates: it has odd length, its operands contain no `*` or `/`, and its operators are exactly `*` or `/`. Its concatenation is the term text. |
| Laws.ComponentsUnique | equation.py:19-26 | Any alternating list whose concatenation is the term text is the split. |
| Evaluation.ApplyFunction | equation.py:49-57 | A code that is not a digit crashes in `int()`. Codes 4-9 give `None`. Codes 0-3 crash on a `None` operand and otherwise give a number. |
| Evaluation.EvalComponent | equation.py:41-69 | An UndefinedVariable error names a letters-only string with no binding, and that string is written in the component itself or in a term of one of the equation's sub-equations (`Mentions`, at any depth). |
| Evaluation.SubEquation | equation.py:71-74 | An UndefinedVariable error names an unbound letters-only string written inside one of the sub-equations. |
| Evaluation.Fold | equation.py:29-34 | An UndefinedVariable error names an unbound letters-only string written in one of the remaining operands or inside a sub-equation. |
| Evaluation.EvalTerm | equation.py:16-39 | An UndefinedVariable error names an unbound letters-only string written in the term's text or inside a sub-equation. |
| Evaluation.SumTerms | equation.py:133-134 | An UndefinedVariable error names an unbound letters-only string written in one of the remaining terms or inside a sub-equation. |
| Evaluation.EvalEquation | equation.py:130-137 | An UndefinedVariable error names an unbound letters-only string written in a term of the equation or of a sub-equation (`Mentions`). |
| Evaluation.Evaluate | equation.py:82-137 | A failed construction is a crash. An UndefinedVariable error names an unbound letters-only string written in a term of the built equation or of one of its sub-equations. |
| Laws.OperandsDivisors | equation.py:32-34 | When no operand is an obstacle, every divisor in the extracted operand list is non-zero. |
| Laws.FoldNumbers | equation.py:29-34 | With every remaining operand a number and no zero divisor, the fold is the left fold of the operand values. |
| Laws.FoldStep | equation.py:30-34 | One round of the loop multiplies or divides the running value by the next operand. |
| Laws.TermFold | equation.py:28-36 | With clean operands, a term is its first operand multiplied or divided by each later operand in turn, negated for a negative term. |
| Laws.FoldStops | equation.py:29-34 | The fold stops at the first operand that is not clean, with that operand's own error, a TypeError for `None`, or ValueUndefined for a zero divisor. Later operands are never evaluated. |
| Laws.ZeroDivisor | equation.py:33-39 | A term whose fold reaches a divisor that evaluates to 0, with every operand before it a number and no earlier zero divisor, evaluates to ValueUndefined. |
| Laws.TermStops | equation.py:28-39 | The first unclean operand decides the term's error. The lemma leaves out a first operand that evaluates to `None`, because the fold still evaluates the next operand before that TypeError. |
| Laws.SumTermsIsSumAll | equation.py:132-135 | The running sum is the in-order sum of the term results, where the first failure wins. |
| Laws.SumAllValues | equation.py:132-135 | When every result is a value, the in-order sum is the sum of the values. |
| Laws.SumAllStops | equation.py:133-137 | The first failing result is the outcome of the in-order sum. |
| Laws.EquationSum | equation.py:130-135 | When every term has a value, the equation's value is the sum of the term values, starting from 0. |
| Laws.EquationStops | equation.py:130-137 | The first failing term makes the equation fail with that term's error, a ValueUndefined from a sub-equation included. |
| Laws.PowerCase | equation.py:42-46 | Any `^` makes a power of the fields before and after the first `^`. The base is evaluated first, then the exponent, and anything after a second `^` is ignored. |
| Laws.FunctionCall | equation.py:47-57 | For an operand x without `^`, `@d x` evaluates x first, and its error wins. Then codes 0-2 give sin, cos and tan of x read in degrees, code 3 gives `abs`, and codes 4-9 give `None`. A `None` operand of a code below 4 is a TypeError. |
| Laws.Reference | equation.py:58-59 | `{k` is the value of sub-equation k, and `{-n` of the n-th from the end. Any other index is an IndexError. |
| Laws.Variable | equation.py:60-64 | An alphabetic component is its binding, or UndefinedVariable with its own name. |
| Laws.Number | equation.py:65-67 | A decimal literal evaluates to the value `float()` reads. |
| Laws.Invalid | equation.py:65-69 | A non-empty component of no other shape is InvalidComponent, as intended at line 69, iff `float()` rejects it. An empty component is an IndexError. |
| Laws.LiteralAsWrittenCrashes | equation.py:69 | As written, the text `?` makes the raise itself fail with a TypeError, where the intended error is InvalidComponent. |

## Left out

- Floating point: values are exact reals, so rounding, overflow (`OverflowError` from `**`),
  `inf` and `nan` are not modelled. `math.pi`, `sin`, `cos`, `tan` and `**` are
  parameters, about which nothing is assumed.
- `float()` reads only an optional sign, digits and at most one `.`. Signed `-inf`, `+nan`,
  the exponent form (`1e5`) and surrounding white space are read as invalid. Bare `inf` and
  `nan` are alphabetic, so line 60 takes them as variable names before `float()` is reached,
  as the model does. Likewise `int()` reads only an optional sign and digits.
- `str.isalpha` is restricted to the ASCII letters; Unicode letters are not modelled.
- The `variables` list of lines 109-111 is not modelled. It is never read by evaluation;
  `Construction.RewriteShortens` shows that its index loop cannot fail.
- Keyword arguments: the bindings are a `map<string, real>`. `float(var[comp])` of a
  non-number binding is not modelled. A binding named `self`, `comp` or `exp` collides with a
  parameter of line 16, 41, 71 or 130, and Python raises a TypeError ("multiple values for
  keyword argument"); the model looks such a variable up like any other.
- `__str__` methods and the error message texts of lines 76-77 and 140-161: only the error
  kinds and the undefined variable's name are kept.
- Evaluation.ApplyFunction: for codes 0-3 its own contract says only that a number operand
  gives a number; which number (sine, cosine or tangent of the operand in degrees, or its
  absolute value) is stated by `Laws.FunctionCall`.
- Evaluation.EvalComponent: it uses `Evaluation.Literal`, the corrected form of line 69, so
  an unreadable literal gives InvalidComponent where the code as written raises a TypeError
  (a `Crash`). The as-written form is `Evaluation.LiteralAsWritten`; see "## Findings".
- Evaluation.EvalComponent: its own contract states only the UndefinedVariable property; what it computes for each shape is stated by `Laws.PowerCase`, `Laws.FunctionCall`, `Laws.Reference`, `Laws.Variable`, `Laws.Number` and `Laws.Invalid`.
- Evaluation.SubEquation: its own contract states only the UndefinedVariable property; what it computes is stated by `Laws.Reference`.
- Evaluation.Fold: its own contract states only the UndefinedVariable property; what it computes is stated by `Laws.FoldNumbers` and `Laws.FoldStops`.
- Evaluation.EvalTerm: its own contract states only the UndefinedVariable property; what it computes is stated by `Laws.TermFold` and `Laws.TermStops`.
- Evaluation.SumTerms: its own contract states only the UndefinedVariable property; what it computes is stated by `Laws.SumTermsIsSumAll`.
- Evaluation.EvalEquation: its own contract states only the UndefinedVariable property; what it computes is stated by `Laws.EquationSum` and `Laws.EquationStops`.
- Evaluation.Evaluate: its contract does not restate evaluation; `Laws.EquationSum` and
  `Laws.EquationStops` do. It places an undefined name in the terms of the built equation,
  not in `exp` itself, because the function-name rewrite and the group tokens change the text.
- Python's recursion limit: `Equation.__init__` recurses once per nesting level (line 102),
  and evaluation once per nesting level and once per function call in a chain such as
  `sinsinsinx`. A few hundred levels raise a RuntimeError in the program; the model has no
  depth bound and gives a value.
- Group replacement is kept as written. A group that holds a function name no longer
  matches after the rewrite and stays in the text. Equal groups all become the first group's
  token. Group k can also match inside the text of a later group. Such a match can re-create an
  earlier group's text when that text holds a `{`: in `({1)*(x)*((x))`, replacing `(x)` by
  `{1` turns `((x))` into `({1)`, the text of group 0. The contracts state only
  what holds in general (`Construction.ReplaceGroupsRemoves`).
- There is no malformed-expression check: the code does not validate its input. An
  unbalanced `)` and an empty first term are IndexErrors, modelled as `Crash`. An unclosed
  `(` is never recorded and is left in the text. A second `^` is silently ignored
  (`Laws.PowerCase`). The model follows the code here, not a construction-time error kind.
- A space right after `(` gives the child an empty first token. That is the IndexError of
  line 121 and is modelled as a crash, not excluded. A space right before `)` only adds an
  unpaired last token, which is dropped.

## Findings

| source | as written | input that shows it | evidently intended | confidence | as-written member | corrected member |
|---|---|---|---|---|---|---|
| equation.py:69 | `raise InvalidComponentError` omits the `component` argument that line 142 requires, so building the exception raises a TypeError | the component `?` (expression `2*?`) | an InvalidComponentError for the component | high, not executed | Evaluation.LiteralAsWritten, Laws.LiteralAsWrittenCrashes | Evaluation.Literal, Laws.Invalid |

=== FILE: brackets.dfy ===
/** The stack scan of `Equation.__init__` that finds the top-level parenthesis groups. */
module Brackets {
  import opened Results

  function Delta(c: char): int {
    if c == '(' then 1 else if c == ')' then -1 else 0
  }

  /** Open parentheses minus close parentheses. */
  function Depth(t: string): int
    decreases |t|
  {
    if |t| == 0 then 0 else Depth(t[..|t| - 1]) + Delta(t[|t| - 1])
  }

  lemma DepthStep(s: string, j: nat)
    requires j < |s|
    ensures Depth(s[..j + 1]) == Depth(s[..j]) + Delta(s[j])
  {
    assert s[..j + 1][..j] == s[..j];
  }

  /** Some prefix closes more parentheses than it opened: the scan meets a `)` with an empty
      stack. */
  predicate Unbalanced(s: string) {
    exists j :: 0 <= j <= |s| && Depth(s[..j]) < 0
  }

  /** `s[a..b]` is a top-level group: it opens at depth 0 with `(`, and the `)` at `b - 1` is
      the first point where the depth returns to 0. */
  predicate IsTopGroup(s: string, a: int, b: int) {
    && 0 <= a < b <= |s|
    && s[a] == '(' && s[b - 1] == ')'
    && Depth(s[..a]) == 0 && Depth(s[..b]) == 0
    && forall j :: a < j < b ==> Depth(s[..j]) > 0
  }

  /** A recorded group: `s[start..end]` including both parentheses. */
  datatype Span = Span(start: nat, end: nat)

  predicate ValidSpans(s: string, spans: seq<Span>) {
    forall k :: 0 <= k < |spans| ==> IsTopGroup(s, spans[k].start, spans[k].end)
  }

  predicate Ordered(spans: seq<Span>) {
    forall k :: 0 <= k < |spans| - 1 ==> spans[k].end <= spans[k + 1].start
  }

  /** What the scan knows after reading `s[..i]`. The stack holds the positions of the
      unclosed `(`; its bottom entry is where the current top-level group opened. */
  ghost predicate ScanInvariant(s: string, i: nat, stack: seq<nat>, spans: seq<Span>) {
    && i <= |s|
    && (forall j :: 0 <= j <= i ==> Depth(s[..j]) >= 0)
    && |stack| == Depth(s[..i])
    && (|stack| > 0 ==>
          && stack[0] < i && s[stack[0]] == '('
          && Depth(s[..stack[0]]) == 0
          && forall j :: stack[0] < j <= i ==> Depth(s[..j]) > 0)
    && ValidSpans(s, spans)
    && Ordered(spans)
    && (forall k :: 0 <= k < |spans| ==> spans[k].end <= (if |stack| > 0 then stack[0] else i))
    && (forall a, b :: b <= i && IsTopGroup(s, a, b) ==> Span(a, b) in spans)
  }

  /** Lines 92-102: push on `(`; on `)` pop, and record the group when the stack empties;
      a `)` with an empty stack is the IndexError of `bracket_indices[-1]`. */
  function Scan(s: string, i: nat, stack: seq<nat>, spans: seq<Span>): (r: Option<seq<Span>>)
    requires ScanInvariant(s, i, stack, spans)
    ensures r.None? <==> Unbalanced(s)
    ensures r.Some? ==> ValidSpans(s, r.value) && Ordered(r.value)
    ensures r.Some? ==> forall a, b :: IsTopGroup(s, a, b) ==> Span(a, b) in r.value
    decreases |s| - i
  {
    if i == |s| then
      Some(spans)
    else if s[i] == '(' then
      OpenStep(s, i, stack, spans);
      Scan(s, i + 1, stack + [i], spans)
    else if s[i] == ')' then
      if |stack| == 0 then
        DepthStep(s, i);
        assert Depth(s[..i + 1]) < 0;
        None
      else
        var start := stack[|stack| - 1];
        var rest := stack[..|stack| - 1];
        if |rest| == 0 then
          CloseTopStep(s, i, stack, spans);
          Scan(s, i + 1, rest, spans + [Span(start, i + 1)])
        else
          CloseStep(s, i, stack, spans);
          Scan(s, i + 1, rest, spans)
    else
      OtherStep(s, i, stack, spans);
      Scan(s, i + 1, stack, spans)
  }

  lemma OpenStep(s: string, i: nat, stack: seq<nat>, spans: seq<Span>)
    requires ScanInvariant(s, i, stack, spans) && i < |s| && s[i] == '('
    ensures ScanInvariant(s, i + 1, stack + [i], spans)
  {
    DepthStep(s, i);
  }

  lemma OtherStep(s: string, i: nat, stack: seq<nat>, spans: seq<Span>)
    requires ScanInvariant(s, i, stack, spans) && i < |s| && s[i] != '(' && s[i] != ')'
    ensures ScanInvariant(s, i + 1, stack, spans)
  {
    DepthStep(s, i);
  }

  lemma CloseStep(s: string, i: nat, stack: seq<nat>, spans: seq<Span>)
    requires ScanInvariant(s, i, stack, spans) && i < |s| && s[i] == ')' && |stack| > 1
    ensures ScanInvariant(s, i + 1, stack[..|stack| - 1], spans)
  {
    DepthStep(s, i);
  }

  /** The `)` that empties the stack closes the group opened at the bottom of the stack, and
      that is the only top-level group ending here. */
  lemma CloseTopStep(s: string, i: nat, stack: seq<nat>, spans: seq<Span>)
    requires ScanInvariant(s, i, stack, spans) && i < |s| && s[i] == ')' && |stack| == 1
    ensures ScanInvariant(s, i + 1, [], spans + [Span(stack[0], i + 1)])
  {
    DepthStep(s, i);
    var opening := stack[0];
    assert IsTopGroup(s, opening, i + 1);
    forall a, b | b == i + 1 && 0 <= a < b
      ensures IsTopGroup(s, a, b) ==> a == opening
    {
      assert a < opening ==> Depth(s[..opening]) == 0;
      assert opening < a ==> Depth(s[..a]) > 0;
    }
  }

  /** The top-level groups of `s` in order, or `None` when a `)` has nothing to close. */
  function ScanGroups(s: string): (r: Option<seq<Span>>)
    ensures r.None? <==> Unbalanced(s)
    ensures r.Some? ==> ValidSpans(s, r.value) && Ordered(r.value)
    ensures r.Some? ==> forall a, b :: IsTopGroup(s, a, b) ==> Span(a, b) in r.value
  {
    assert s[..0] == [];
    Scan(s, 0, [], [])
  }

  lemma {:induction false} DepthSplit(s: string, a: nat, j: nat)
    requires a <= j <= |s|
    ensures Depth(s[..j]) == Depth(s[..a]) + Depth(s[a..j])
    decreases j - a
  {
    if j > a {
      DepthSplit(s, a, j - 1);
      DepthStep(s, j - 1);
      assert s[a..j][..j - 1 - a] == s[a..j - 1];
    }
  }

  /** A recorded group's own text starts with `(`, ends with the `)` that balances it, and is
      balanced: every proper non-empty prefix is still open, the whole closes. */
  lemma {:induction false} GroupIsBalanced(s: string, a: nat, b: nat)
    requires IsTopGroup(s, a, b)
    ensures |s[a..b]| >= 2 && s[a..b][0] == '(' && s[a..b][b - a - 1] == ')'
    ensures Depth(s[a..b]) == 0
    ensures forall m :: 0 < m < b - a ==> Depth(s[a..b][..m]) > 0
  {
    var g := s[a..b];
    DepthSplit(s, a, b);
    forall m | 0 < m < b - a
      ensures Depth(g[..m]) > 0
    {
      assert g[..m] == s[a..a + m];
      DepthSplit(s, a, a + m);
    }
  }
}

=== FILE: construction.dfy ===
/** `Equation.__init__`: the parse tree built once from the expression text. */
module Construction {
  import opened Results
  import opened Text
  import opened Numbers
  import opened Brackets

  /** One signed, additively combined piece of an equation. Python's `Term` also keeps a
      reference to the enclosing equation's sub-equations; here the evaluator passes the
      enclosing `Equation` instead. */
  datatype Term = Term(text: string, positive: bool)

  /** `terms` are the signed terms of the rewritten text; `subs[k]` is the equation built
      from the interior of the k-th top-level group, referenced as `{k`. */
  datatype Equation = Equation(terms: seq<Term>, subs: seq<Equation>)

  // ---------------------------------------------------------------------------
  // Function names (lines 104-107)
  // ---------------------------------------------------------------------------

  /** Indexed by operator code: `Term.OP_SIN` = 0, `OP_COS` = 1, `OP_TAN` = 2, `OP_ABS` = 3. */
  const FunctionNames: seq<string> := ["sin", "cos", "tan", "abs"]

  /** `"@%i" % code`. */
  function FunctionToken(code: nat): string
    requires code < 10
  {
    ['@', DigitChar(code)]
  }

  /** Applies the four replacements of lines 104-107 in order, starting at `code`. */
  function RewriteFrom(s: string, code: nat): string
    requires code <= 4
    decreases 4 - code
  {
    if code == 4 then s
    else RewriteFrom(ReplaceAll(s, FunctionNames[code], FunctionToken(code)), code + 1)
  }

  function RewriteFunctions(s: string): string {
    RewriteFrom(s, 0)
  }

  predicate NoLetters(s: string) {
    forall i :: 0 <= i < |s| ==> !IsLetter(s[i])
  }

  /** A word never runs into a replacement made of non-letters. */
  lemma WordSeparated(w: string, rep: string)
    requires IsAlpha(w) && |rep| > 0 && NoLetters(rep)
    ensures Separated(w, rep)
  {
    assert IsLetter(w[0]);
    assert !IsLetter(rep[0]);
  }

  lemma FunctionNamesAreWords()
    ensures forall k :: 0 <= k < 4 ==> IsAlpha(FunctionNames[k])
  {
    assert IsAlpha("sin") && IsAlpha("cos") && IsAlpha("tan") && IsAlpha("abs");
  }

  /** `"{%i" % k`, the reference token for group `k`. */
  function RefToken(k: nat): string {
    ['{'] + Decimal(k)
  }

  lemma TokensHaveNoLetters(code: nat, k: nat)
    requires code < 4
    ensures NoLetters(FunctionToken(code)) && NoLetters(RefToken(k))
    ensures '(' !in RefToken(k) && '{' !in FunctionToken(code)
  {
    var d := Decimal(k);
    forall i | 0 <= i < |d| ensures !IsLetter(d[i]) && d[i] != '(' {
      assert IsDigit(d[i]);
    }
    assert RefToken(k)[1..] == d;
  }

  /** The rewritten text is never longer than the expression (each three-letter name becomes
      two characters), so the loop of lines 109-111, which indexes the expression with
      positions of the rewritten text, stays in range. */
  lemma {:induction false} RewriteShortens(s: string, code: nat)
    requires code <= 4
    ensures |RewriteFrom(s, code)| <= |s|
    decreases 4 - code
  {
    if code < 4 {
      var s' := ReplaceAll(s, FunctionNames[code], FunctionToken(code));
      ReplaceAllShortens(s, FunctionNames[code], FunctionToken(code));
      RewriteShortens(s', code + 1);
    }
  }

  /** After lines 104-107 none of the four names is left, since the replacements contain no
      letters; and text that held none of them is unchanged. */
  lemma {:induction false} RewriteRemovesNames(s: string, code: nat)
    requires code <= 4
    ensures forall k :: code <= k < 4 ==> !Occurs(FunctionNames[k], RewriteFrom(s, code))
    ensures forall k :: 0 <= k < code && !Occurs(FunctionNames[k], s)
              ==> !Occurs(FunctionNames[k], RewriteFrom(s, code))
    ensures (forall k :: 0 <= k < 4 ==> !Occurs(FunctionNames[k], s)) ==> RewriteFrom(s, code) == s
    decreases 4 - code
  {
    if code < 4 {
      FunctionNamesAreWords();
      TokensHaveNoLetters(code, 0);
      var rep := FunctionToken(code);
      var s' := ReplaceAll(s, FunctionNames[code], rep);
      WordSeparated(FunctionNames[code], rep);
      ReplaceAllRemovesPattern(s, FunctionNames[code], rep);
      ReplaceAllAbsent(s, FunctionNames[code], rep);
      forall k | 0 <= k < 4
        ensures !Occurs(FunctionNames[k], s) ==> !Occurs(FunctionNames[k], s')
      {
        WordSeparated(FunctionNames[k], rep);
        ReplaceAllAddsNoOccurrence(s, FunctionNames[code], rep, FunctionNames[k]);
      }
      RewriteRemovesNames(s', code + 1);
    }
  }

  // ---------------------------------------------------------------------------
  // Group references (lines 101, 113-114)
  // ---------------------------------------------------------------------------

  /** The original text of every recorded group, parentheses included (line 101). */
  function GroupTexts(s: string, spans: seq<Span>): (r: seq<string>)
    requires ValidSpans(s, spans)
    ensures |r| == |spans|
    ensures forall k :: 0 <= k < |r| ==> r[k] == s[spans[k].start..spans[k].end]
  {
    seq(|spans|, k requires 0 <= k < |spans| => s[spans[k].start..spans[k].end])
  }

  predicate GroupShaped(texts: seq<string>) {
    forall j :: 0 <= j < |texts| ==> |texts[j]| > 0 && texts[j][0] == '('
  }

  /** Lines 113-114: for k = 0, 1, ... every verbatim occurrence of group k's text in the
      current string becomes `{k`. */
  function ReplaceGroups(s: string, texts: seq<string>, k: nat): string
    requires GroupShaped(texts) && k <= |texts|
    decreases |texts| - k
  {
    if k == |texts| then s
    else ReplaceGroups(ReplaceAll(s, texts[k], RefToken(k)), texts, k + 1)
  }

  /** Replacing groups brings back no function name, and leaves no group text that lacks a
      `{` (such a text cannot reappear once replaced; identical texts therefore all become the
      first one's token). */
  lemma {:induction false} ReplaceGroupsRemoves(s: string, texts: seq<string>, k: nat)
    requires GroupShaped(texts) && k <= |texts|
    ensures forall j :: k <= j < |texts| && '{' !in texts[j] ==> !Occurs(texts[j], ReplaceGroups(s, texts, k))
    ensures forall j :: 0 <= j < k && '{' !in texts[j] && !Occurs(texts[j], s)
              ==> !Occurs(texts[j], ReplaceGroups(s, texts, k))
    ensures forall n :: 0 <= n < 4 && !Occurs(FunctionNames[n], s)
              ==> !Occurs(FunctionNames[n], ReplaceGroups(s, texts, k))
    decreases |texts| - k
  {
    if k < |texts| {
      var rep := RefToken(k);
      var s' := ReplaceAll(s, texts[k], rep);
      TokensHaveNoLetters(0, k);
      if '{' !in texts[k] {
        ReplaceAllRemovesPattern(s, texts[k], rep);
      }
      forall j | 0 <= j < |texts| && '{' !in texts[j]
        ensures !Occurs(texts[j], s) ==> !Occurs(texts[j], s')
      {
        ReplaceAllAddsNoOccurrence(s, texts[k], rep, texts[j]);
      }
      FunctionNamesAreWords();
      forall n | 0 <= n < 4
        ensures !Occurs(FunctionNames[n], s) ==> !Occurs(FunctionNames[n], s')
      {
        WordSeparated(FunctionNames[n], rep);
        ReplaceAllAddsNoOccurrence(s, texts[k], rep, FunctionNames[n]);
      }
      ReplaceGroupsRemoves(s', texts, k + 1);
    }
  }

  /** The fully rewritten text, `self.formatted_exp` before the split of line 116. */
  function Format(s: string, spans: seq<Span>): string
    requires ValidSpans(s, spans)
  {
    GroupShapedTexts(s, spans);
    ReplaceGroups(RewriteFunctions(s), GroupTexts(s, spans), 0)
  }

  lemma GroupShapedTexts(s: string, spans: seq<Span>)
    requires ValidSpans(s, spans)
    ensures GroupShaped(GroupTexts(s, spans))
  {
    var texts := GroupTexts(s, spans);
    forall j | 0 <= j < |texts| ensures |texts[j]| > 0 && texts[j][0] == '(' {
      GroupIsBalanced(s, spans[j].start, spans[j].end);
    }
  }

  /** The rewritten text holds none of the function names, and no group text without a `{`. */
  lemma FormatRewrites(s: string, spans: seq<Span>)
    requires ValidSpans(s, spans)
    ensures forall n :: 0 <= n < 4 ==> !Occurs(FunctionNames[n], Format(s, spans))
    ensures forall k :: 0 <= k < |spans| && '{' !in s[spans[k].start..spans[k].end]
              ==> !Occurs(s[spans[k].start..spans[k].end], Format(s, spans))
  {
    GroupShapedTexts(s, spans);
    RewriteRemovesNames(s, 0);
    ReplaceGroupsRemoves(RewriteFunctions(s), GroupTexts(s, spans), 0);
  }

  // ---------------------------------------------------------------------------
  // Terms (lines 116-128)
  // ---------------------------------------------------------------------------

  /** Lines 126-128: the tokens from index `i` on, taken as (sign, body) pairs; an unpaired
      last token is dropped. */
  function PairTerms(tokens: seq<string>, i: nat): (r: seq<Term>)
    ensures |r| == (if i + 1 < |tokens| then (|tokens| - i) / 2 else 0)
    ensures forall m :: 0 <= m < |r| ==> r[m] == Term(tokens[i + 2 * m + 1], tokens[i + 2 * m] == "+")
    decreases |tokens| - i
  {
    if i + 1 < |tokens| then [Term(tokens[i + 1], tokens[i] == "+")] + PairTerms(tokens, i + 2)
    else []
  }

  /** Lines 116-128: the first token is a term, negative iff it starts with `-` (which is then
      dropped); after it, token 2k-1 is the sign of term k (positive iff exactly `+`) and token
      2k its text. An empty first token is the IndexError of `terms[0][0]`. */
  function MakeTerms(tokens: seq<string>): (r: Result<seq<Term>>)
    requires |tokens| >= 1
    ensures r.Fail? <==> tokens[0] == ""
    ensures r.Fail? ==> r.error == Crash
    ensures r.Ok? ==> |r.value| == 1 + (|tokens| - 1) / 2
    ensures r.Ok? ==> (r.value[0].positive <==> tokens[0][0] != '-')
    ensures r.Ok? ==> r.value[0].text == if tokens[0][0] == '-' then tokens[0][1..] else tokens[0]
    ensures r.Ok? ==> forall k :: 1 <= k < |r.value| ==> r.value[k] == Term(tokens[2 * k], tokens[2 * k - 1] == "+")
  {
    if |tokens[0]| == 0 then Fail(Crash)
    else
      var first := if tokens[0][0] == '-' then Term(tokens[0][1..], false) else Term(tokens[0], true);
      var rest := PairTerms(tokens, 1);
      assert forall k :: 1 <= k < 1 + |rest| ==> ([first] + rest)[k] == rest[k - 1];
      Ok([first] + rest)
  }

  // ---------------------------------------------------------------------------
  // The whole constructor
  // ---------------------------------------------------------------------------

  /** The text a child equation is built from: the group without its parentheses (line 102). */
  function Interior(s: string, sp: Span): (r: string)
    requires IsTopGroup(s, sp.start, sp.end)
    ensures |r| + 2 == sp.end - sp.start
  {
    s[sp.start + 1..sp.end - 1]
  }

  /** `Equation(exp)`. Construction only ever fails by crashing: on a `)` with nothing to
      close, on an empty first token, or because a child's construction crashed. */
  function Build(s: string): (r: Result<Equation>)
    ensures r.Fail? ==> r.error == Crash
    ensures Unbalanced(s) ==> r.Fail?
    ensures r.Ok? ==> |r.value.terms| >= 1 && |r.value.subs| == |ScanGroups(s).value|
    decreases |s|, 1, 0
  {
    match ScanGroups(s)
    case None => Fail(Crash)
    case Some(spans) =>
      var subs :- BuildChildren(s, spans, []);
      var terms :- MakeTerms(SplitOn(Format(s, spans), ' '));
      Ok(Equation(terms, subs))
  }

  /** Line 102, group by group in recording order; `built` holds the children of the groups
      before group `|built|`. */
  function BuildChildren(s: string, spans: seq<Span>, built: seq<Equation>): (r: Result<seq<Equation>>)
    requires ValidSpans(s, spans) && |built| <= |spans|
    requires forall j :: 0 <= j < |built| ==> Child(s, spans, j) == Ok(built[j])
    ensures r.Fail? ==> r.error == Crash
    ensures r.Ok? ==> |r.value| == |spans|
    ensures r.Ok? ==> forall j :: 0 <= j < |spans| ==> Child(s, spans, j) == Ok(r.value[j])
    decreases |s|, 0, |spans| - |built| + 1
  {
    if |built| == |spans| then Ok(built)
    else
      var child :- Child(s, spans, |built|);
      BuildChildren(s, spans, built + [child])
  }

  /** The equation built from the interior of group `j`. */
  function Child(s: string, spans: seq<Span>, j: nat): Result<Equation>
    requires ValidSpans(s, spans) && j < |spans|
    decreases |s|, 0, 0
  {
    Build(Interior(s, spans[j]))
  }

  /** The k-th child is the equation built from the k-th top-level group's interior. */
  lemma BuildChildrenFromGroups(s: string)
    ensures Build(s).Ok? ==>
              forall k :: 0 <= k < |Build(s).value.subs| ==>
                Build(Interior(s, ScanGroups(s).value[k])) == Ok(Build(s).value.subs[k])
  {
    if Build(s).Ok? {
      var spans := ScanGroups(s).value;
      assert BuildChildren(s, spans, []).Ok?;
      assert Build(s).value.subs == BuildChildren(s, spans, []).value;
    }
  }

  /** Every term of a built equation is space-free and mentions no function name: the terms
      are the space-separated pieces of the rewritten text. */
  lemma BuildTermsRewritten(s: string)
    ensures Build(s).Ok? ==>
              forall t, n :: t in Build(s).value.terms && 0 <= n < 4 ==>
                ' ' !in t.text && !Occurs(FunctionNames[n], t.text)
  {
    if Build(s).Ok? {
      var spans := ScanGroups(s).value;
      var f := Format(s, spans);
      var tokens := SplitOn(f, ' ');
      var terms := MakeTerms(tokens).value;
      assert Build(s).value.terms == terms;
      FormatRewrites(s, spans);
      forall t, n | t in terms && 0 <= n < 4
        ensures ' ' !in t.text && !Occurs(FunctionNames[n], t.text)
      {
        var k :| 0 <= k < |terms| && terms[k] == t;
        var idx := if k == 0 then 0 else 2 * k;
        OccursInField(f, ' ', idx, FunctionNames[n]);
        if k == 0 && tokens[0][0] == '-' {
          OccursInSlice(FunctionNames[n], tokens[0], 1, |tokens[0]|);
          assert tokens[0][1..|tokens[0]|] == t.text;
          assert forall i :: 0 <= i < |t.text| ==> t.text[i] == tokens[0][i + 1];
        }
      }
    }
  }
}

=== FILE: evaluation.dfy ===
/** `Term.get_value`, `Term.__evaluate_component`, `Term.__evaluate_sub_eqn` and
    `Equation.get_value`: the value of a built equation under a set of variable bindings. */
module Evaluation {
  import opened Results
  import opened Text
  import opened Numbers
  import opened Construction

  /** The parts of Python's `math` module and of float `**` the evaluator uses. They are
      supplied by the caller: the model works over `real` and leaves these functions free. */
  datatype MathLib = MathLib(
    pi: real,
    sin: real -> real,
    cos: real -> real,
    tan: real -> real,
    pow: (real, real) -> real)

  /** What a component evaluates to: a float, or the `None` that falls out of the function
      branch for a code that names no function (lines 50-57). */
  datatype Val = Num(x: real) | NoValue

  /** The bindings passed as keyword arguments. */
  type Bindings = map<string, real>

  /** A name that `UndefinedVariable` may report: a variable-shaped component with no binding. */
  predicate Unbound(name: string, vars: Bindings) {
    IsAlpha(name) && name !in vars
  }

  /** `name` is written in the text of a term of `eq` or of one of its sub-equations. */
  predicate Mentions(eq: Equation, name: string)
    decreases eq, 1
  {
    (exists t :: t in eq.terms && Occurs(name, t.text)) || Below(eq, name)
  }

  /** `name` is written somewhere inside a sub-equation of `eq`. */
  predicate Below(eq: Equation, name: string)
    decreases eq, 0
  {
    exists e :: e in eq.subs && Mentions(e, name)
  }

  // ---------------------------------------------------------------------------
  // Splitting a term into components (lines 19-26)
  // ---------------------------------------------------------------------------

  predicate IsOp(c: char) {
    c == '*' || c == '/'
  }

  predicate NoOp(s: string) {
    forall i :: 0 <= i < |s| ==> !IsOp(s[i])
  }

  /** The concatenation of a list of strings. */
  function Concat(parts: seq<string>): string
    decreases |parts|
  {
    if |parts| == 0 then [] else parts[0] + Concat(parts[1..])
  }

  /** Every part is a piece of the concatenation. */
  lemma {:induction false} OccursInPart(parts: seq<string>, j: nat, w: string)
    requires j < |parts| && Occurs(w, parts[j])
    ensures Occurs(w, Concat(parts))
    decreases |parts|
  {
    var c := Concat(parts);
    if j == 0 {
      assert c[0..|parts[0]|] == parts[0];
      OccursInSlice(w, c, 0, |parts[0]|);
    } else {
      OccursInPart(parts[1..], j - 1, w);
      assert c[|parts[0]|..|c|] == Concat(parts[1..]);
      OccursInSlice(w, c, |parts[0]|, |c|);
    }
  }

  lemma OccursInParts(parts: seq<string>)
    ensures forall j, w :: 0 <= j < |parts| && Occurs(w, parts[j]) ==> Occurs(w, Concat(parts))
  {
    forall j, w | 0 <= j < |parts| && Occurs(w, parts[j]) ensures Occurs(w, Concat(parts)) {
      OccursInPart(parts, j, w);
    }
  }

  /** The shape of a component list: operands at even positions, free of `*` and `/`,
      separated by one-character operators at odd positions. */
  predicate Alternating(cs: seq<string>) {
    && |cs| % 2 == 1
    && (forall k :: 0 <= k < |cs| && k % 2 == 0 ==> NoOp(cs[k]))
    && (forall k :: 0 <= k < |cs| && k % 2 == 1 ==> cs[k] == "*" || cs[k] == "/")
  }

  /** Lines 19-26: cut the term text before and after every `*` and `/`, keeping the
      operators as components of their own. */
  function SplitComponents(t: string): (r: seq<string>)
    ensures Alternating(r)
    ensures Concat(r) == t
    decreases |t|
  {
    if |t| == 0 then [""]
    else
      var rest := SplitComponents(t[1..]);
      if IsOp(t[0]) then
        var r := [""] + [[t[0]]] + rest;
        assert r[1..][1..] == rest;
        r
      else
        var r := [[t[0]] + rest[0]] + rest[1..];
        assert r[1..] == rest[1..];
        assert Concat(rest) == rest[0] + Concat(rest[1..]);
        r
  }

  // ---------------------------------------------------------------------------
  // Arithmetic on component values
  // ---------------------------------------------------------------------------

  /** `a * b`; multiplying `None` is a TypeError. */
  function Mul(a: Val, b: Val): (r: Result<Val>)
    ensures r.Ok? <==> a.Num? && b.Num?
    ensures r.Ok? ==> r == Ok(Num(a.x * b.x))
    ensures r.Fail? ==> r.error == Crash
  {
    if a.NoValue? || b.NoValue? then Fail(Crash) else Ok(Num(a.x * b.x))
  }

  /** `a / b`: a TypeError on `None`, otherwise a ZeroDivisionError on a zero divisor, which
      the handler of line 38 turns into ValueUndefined. */
  function Div(a: Val, b: Val): (r: Result<Val>)
    ensures r.Ok? <==> a.Num? && b.Num? && b.x != 0.0
    ensures r.Ok? ==> r == Ok(Num(a.x / b.x))
    ensures r.Fail? ==> (r.error == ValueUndefined <==> a.Num? && b.Num?)
    ensures r.Fail? ==> r.error == ValueUndefined || r.error == Crash
  {
    if a.NoValue? || b.NoValue? then Fail(Crash)
    else if b.x == 0.0 then Fail(ValueUndefined)
    else Ok(Num(a.x / b.x))
  }

  predicate IsIntegral(e: real) {
    e == e.Floor as real
  }

  /** Python 2 float `b ** e`: `0.0` to a negative power is a ZeroDivisionError (so
      ValueUndefined), a negative base to a fractional power a ValueError. */
  function Power(m: MathLib, b: Val, e: Val): (r: Result<Val>)
    ensures r.Ok? <==> b.Num? && e.Num? && !(b.x == 0.0 && e.x < 0.0) && !(b.x < 0.0 && !IsIntegral(e.x))
    ensures r.Ok? ==> r == Ok(Num(m.pow(b.x, e.x)))
    ensures r.Fail? ==> (r.error == ValueUndefined <==> b.Num? && e.Num? && b.x == 0.0 && e.x < 0.0)
    ensures r.Fail? ==> r.error == ValueUndefined || r.error == Crash
  {
    if b.NoValue? || e.NoValue? then Fail(Crash)
    else if b.x == 0.0 && e.x < 0.0 then Fail(ValueUndefined)
    else if b.x < 0.0 && !IsIntegral(e.x) then Fail(Crash)
    else Ok(Num(m.pow(b.x, e.x)))
  }

  function Abs(x: real): (r: real)
    ensures r >= 0.0 && (r == x || r == -x)
  {
    if x < 0.0 then -x else x
  }

  /** The angle a trigonometric function is applied to: the operand read as degrees. */
  function Radians(m: MathLib, degrees: real): real {
    degrees * m.pi / 180.0
  }

  /** Lines 49-57, after the operand has been evaluated: `int(comp[1])` must read a digit;
      codes 0-2 are `sin`, `cos` and `tan` of the operand in degrees, code 3 is `abs`, and any
      other code returns `None`. */
  function ApplyFunction(m: MathLib, code: char, operand: Val): (r: Result<Val>)
    ensures !IsDigit(code) ==> r == Fail(Crash)
    ensures IsDigit(code) && DigitValue(code) >= 4 ==> r == Ok(NoValue)
    ensures IsDigit(code) && DigitValue(code) < 4 && operand.NoValue? ==> r == Fail(Crash)
    ensures IsDigit(code) && DigitValue(code) < 4 && operand.Num? ==> r.Ok? && r.value.Num?
  {
    if !IsDigit(code) then Fail(Crash)
    else
      var c := DigitValue(code);
      if c >= 4 then Ok(NoValue)
      else if operand.NoValue? then Fail(Crash)
      else if c == 0 then Ok(Num(m.sin(Radians(m, operand.x))))
      else if c == 1 then Ok(Num(m.cos(Radians(m, operand.x))))
      else if c == 2 then Ok(Num(m.tan(Radians(m, operand.x))))
      else Ok(Num(Abs(operand.x)))
  }

  /** Python list indexing `xs[index]` on a list of length `n`: negative indices count from
      the end, anything else out of range is an IndexError. */
  function ListIndex(index: int, n: nat): (r: Option<nat>)
    ensures r.Some? <==> -(n as int) <= index < n
    ensures r.Some? ==> r.value < n && (r.value == index || r.value == index + n)
  {
    if 0 <= index < n then Some(index)
    else if -(n as int) <= index < 0 then Some(index + n)
    else None
  }

  /** Lines 65-69 as intended: `float(comp)`, and InvalidComponent when that fails. */
  function Literal(comp: string): (r: Result<Val>)
    ensures r.Ok? <==> ParseNumber(comp).Some?
    ensures r.Ok? ==> r == Ok(Num(ParseNumber(comp).value))
    ensures r.Fail? ==> r.error == InvalidComponent
  {
    match ParseNumber(comp)
    case Some(v) => Ok(Num(v))
    case None => Fail(InvalidComponent)
  }

  /** Lines 65-69 as written: `raise InvalidComponentError` instantiates the class without the
      argument its `__init__` (line 142) requires, so the raise itself fails with a TypeError. */
  function LiteralAsWritten(comp: string): (r: Result<Val>)
    ensures r.Ok? <==> ParseNumber(comp).Some?
    ensures r.Ok? ==> r == Literal(comp)
    ensures r.Fail? ==> r.error == Crash
  {
    match ParseNumber(comp)
    case Some(v) => Ok(Num(v))
    case None => Fail(Crash)
  }

  // ---------------------------------------------------------------------------
  // The evaluator (lines 16-74 and 130-137)
  // ---------------------------------------------------------------------------

  /** `__evaluate_component` on `comp`, inside a term of `eq`. */
  function EvalComponent(m: MathLib, eq: Equation, vars: Bindings, comp: string): (r: Result<Val>)
    ensures r.Fail? && r.error.UndefinedVariable? ==> Unbound(r.error.name, vars)
    ensures r.Fail? && r.error.UndefinedVariable? ==>
              Occurs(r.error.name, comp) || Below(eq, r.error.name)
    decreases eq, 0, |comp|, 1
  {
    if '^' in comp then
      var parts := SplitOn(comp, '^');
      OccursInFields(comp, '^');
      var base :- EvalComponent(m, eq, vars, parts[0]);
      var power :- EvalComponent(m, eq, vars, parts[1]);
      Power(m, base, power)
    else if |comp| == 0 then
      Fail(Crash)
    else if comp[0] == '@' then
      OccursInSuffix(comp, if |comp| >= 2 then 2 else |comp|);
      var operand :- EvalComponent(m, eq, vars, if |comp| >= 2 then comp[2..] else "");
      if |comp| < 2 then Fail(Crash) else ApplyFunction(m, comp[1], operand)
    else if comp[0] == '{' then
      var v :- SubEquation(m, eq, vars, comp);
      Ok(Num(v))
    else if IsAlpha(comp) then
      assert OccursAt(comp, comp, 0);
      if comp in vars then Ok(Num(vars[comp])) else Fail(UndefinedVariable(comp))
    else
      Literal(comp)
  }

  /** `__evaluate_sub_eqn`: `int(comp[1:])` indexes the sub-equations of `eq`. */
  function SubEquation(m: MathLib, eq: Equation, vars: Bindings, comp: string): (r: Result<real>)
    requires |comp| >= 1
    ensures r.Fail? && r.error.UndefinedVariable? ==> Unbound(r.error.name, vars)
    ensures r.Fail? && r.error.UndefinedVariable? ==> Below(eq, r.error.name)
    decreases eq, 0, |comp|, 0
  {
    match ParseInt(comp[1..])
    case None => Fail(Crash)
    case Some(index) =>
      match ListIndex(index, |eq.subs|)
      case None => Fail(Crash)
      case Some(k) => EvalEquation(m, eq.subs[k], vars)
  }

  /** Lines 29-34 from operator position `i` on, with `acc` the value so far. */
  function Fold(m: MathLib, eq: Equation, vars: Bindings, comps: seq<string>, i: nat, acc: Val): (r: Result<Val>)
    ensures r.Fail? && r.error.UndefinedVariable? ==> Unbound(r.error.name, vars)
    ensures r.Fail? && r.error.UndefinedVariable? ==>
              (exists j :: i < j < |comps| && Occurs(r.error.name, comps[j])) || Below(eq, r.error.name)
    decreases eq, 1, |comps| - i
  {
    if i + 1 >= |comps| then Ok(acc)
    else if comps[i] == "*" then
      var v :- EvalComponent(m, eq, vars, comps[i + 1]);
      var p :- Mul(acc, v);
      Fold(m, eq, vars, comps, i + 2, p)
    else if comps[i] == "/" then
      var d :- EvalComponent(m, eq, vars, comps[i + 1]);
      var q :- Div(acc, d);
      Fold(m, eq, vars, comps, i + 2, q)
    else
      Fold(m, eq, vars, comps, i + 2, acc)
  }

  /** `Term.get_value` for a term of `eq`: fold the components, then apply the sign. */
  function EvalTerm(m: MathLib, eq: Equation, vars: Bindings, t: Term): (r: Result<real>)
    ensures r.Fail? && r.error.UndefinedVariable? ==> Unbound(r.error.name, vars)
    ensures r.Fail? && r.error.UndefinedVariable? ==>
              Occurs(r.error.name, t.text) || Below(eq, r.error.name)
    decreases eq, 2
  {
    var comps := SplitComponents(t.text);
    OccursInParts(comps);
    var first :- EvalComponent(m, eq, vars, comps[0]);
    var v :- Fold(m, eq, vars, comps, 1, first);
    if v.NoValue? then Fail(Crash)
    else Ok(if t.positive then v.x else -v.x)
  }

  /** Lines 132-135 from term `k` on, with `acc` the sum so far. */
  function SumTerms(m: MathLib, eq: Equation, vars: Bindings, k: nat, acc: real): (r: Result<real>)
    requires k <= |eq.terms|
    ensures r.Fail? && r.error.UndefinedVariable? ==> Unbound(r.error.name, vars)
    ensures r.Fail? && r.error.UndefinedVariable? ==>
              (exists j :: k <= j < |eq.terms| && Occurs(r.error.name, eq.terms[j].text))
              || Below(eq, r.error.name)
    decreases eq, 3, |eq.terms| - k
  {
    if k == |eq.terms| then Ok(acc)
    else
      var v :- EvalTerm(m, eq, vars, eq.terms[k]);
      SumTerms(m, eq, vars, k + 1, acc + v)
  }

  /** `Equation.get_value`. */
  function EvalEquation(m: MathLib, eq: Equation, vars: Bindings): (r: Result<real>)
    ensures r.Fail? && r.error.UndefinedVariable? ==> Unbound(r.error.name, vars)
    ensures r.Fail? && r.error.UndefinedVariable? ==> Mentions(eq, r.error.name)
    decreases eq, 4
  {
    SumTerms(m, eq, vars, 0, 0.0)
  }

  /** `Equation(exp).get_value(**vars)`. */
  function Evaluate(m: MathLib, exp: string, vars: Bindings): (r: Result<real>)
    ensures r.Fail? && r.error.UndefinedVariable? ==> Unbound(r.error.name, vars)
    ensures Build(exp).Fail? ==> r == Fail(Crash)
    ensures r.Fail? && r.error.UndefinedVariable? ==> Build(exp).Ok? && Mentions(Build(exp).value, r.error.name)
  {
    var eq :- Build(exp);
    EvalEquation(m, eq, vars)
  }
}

=== FILE: laws.dfy ===
/** What evaluation computes, stated against reference definitions: the component list is the
    only alternating split of the term, a term is a quotient of products, an equation is a sum,
    and each component shape is dispatched to its own case. */
module Laws {
  import opened Results
  import opened Text
  import opened Numbers
  import opened Construction
  import opened Evaluation

  // ---------------------------------------------------------------------------
  // Component split
  // ---------------------------------------------------------------------------

  /** The split of lines 19-26 is the only list of alternating operands and operators whose
      concatenation is the term text. */
  lemma {:induction false} ComponentsUnique(t: string, cs: seq<string>)
    requires Alternating(cs) && Concat(cs) == t
    ensures cs == SplitComponents(t)
    decreases |t|
  {
    if |cs| == 1 {
      assert cs[1..] == [];
      assert Concat(cs[1..]) == [];
      assert Concat(cs) == cs[0];
      assert cs == [cs[0]];
      SplitOperand(t);
    } else if |cs[0]| == 0 {
      assert Concat(cs) == cs[0] + (cs[1] + Concat(cs[2..])) by {
        assert cs[1..][1..] == cs[2..];
      }
      assert t[0] == cs[1][0] && IsOp(t[0]);
      assert t[1..] == Concat(cs[2..]);
      AlternatingTail(cs);
      ComponentsUnique(t[1..], cs[2..]);
      assert cs == [""] + [[t[0]]] + cs[2..];
    } else {
      var head := cs[0][1..];
      var cs' := [head] + cs[1..];
      HeadShift(cs);
      assert t == [cs[0][0]] + Concat(cs');
      assert t[1..] == Concat(cs');
      ComponentsUnique(t[1..], cs');
      assert [t[0]] + head == cs[0];
      assert SplitComponents(t) == [[t[0]] + cs'[0]] + cs'[1..];
      assert cs == [cs[0]] + cs[1..];
    }
  }

  /** Moving the first character out of a non-empty first operand keeps the list
      alternating. */
  lemma HeadShift(cs: seq<string>)
    requires Alternating(cs) && |cs[0]| > 0
    ensures !IsOp(cs[0][0])
    ensures Alternating([cs[0][1..]] + cs[1..])
    ensures Concat(cs) == [cs[0][0]] + Concat([cs[0][1..]] + cs[1..])
  {
    var head := cs[0][1..];
    var cs' := [head] + cs[1..];
    assert NoOp(cs[0]);
    NoOpTail(cs[0]);
    assert forall k :: 1 <= k < |cs'| ==> cs'[k] == cs[k];
    HeadShiftConcat(cs);
  }

  lemma NoOpTail(x: string)
    requires NoOp(x) && |x| > 0
    ensures NoOp(x[1..])
  {
    forall i | 0 <= i < |x[1..]| ensures !IsOp(x[1..][i]) {
      assert x[1..][i] == x[i + 1];
    }
  }

  lemma HeadShiftConcat(cs: seq<string>)
    requires |cs| > 0 && |cs[0]| > 0
    ensures Concat(cs) == [cs[0][0]] + Concat([cs[0][1..]] + cs[1..])
  {
    var head := cs[0][1..];
    var cs' := [head] + cs[1..];
    var rest := Concat(cs[1..]);
    assert Concat(cs') == head + rest by {
      assert cs'[0] == head && cs'[1..] == cs[1..];
    }
    assert Concat(cs) == cs[0] + rest;
    ConsHead(cs[0], rest);
  }

  lemma ConsHead(x: string, y: string)
    requires |x| > 0
    ensures x + y == [x[0]] + (x[1..] + y)
  {
    assert x == [x[0]] + x[1..];
  }

  /** A text without operators is a single component. */
  lemma {:induction false} SplitOperand(t: string)
    requires NoOp(t)
    ensures SplitComponents(t) == [t]
    decreases |t|
  {
    if |t| > 0 {
      assert !IsOp(t[0]);
      assert NoOp(t[1..]) by {
        forall i | 0 <= i < |t[1..]| ensures !IsOp(t[1..][i]) {
          assert t[1..][i] == t[i + 1];
        }
      }
      SplitOperand(t[1..]);
      assert [t[0]] + t[1..] == t;
    }
  }

  lemma AlternatingTail(cs: seq<string>)
    requires Alternating(cs) && |cs| >= 3
    ensures Alternating(cs[2..])
  {
    var tl := cs[2..];
    forall k | 0 <= k < |tl| && k % 2 == 0 ensures NoOp(tl[k]) {
      assert tl[k] == cs[k + 2];
    }
    forall k | 0 <= k < |tl| && k % 2 == 1 ensures tl[k] == "*" || tl[k] == "/" {
      assert tl[k] == cs[k + 2];
    }
  }

  // ---------------------------------------------------------------------------
  // Term fold
  // ---------------------------------------------------------------------------

  /** The operand at position `j` evaluates to a number. */
  predicate NumberAt(m: MathLib, eq: Equation, vars: Bindings, cs: seq<string>, j: nat) {
    j < |cs| && EvalComponent(m, eq, vars, cs[j]).Ok? && EvalComponent(m, eq, vars, cs[j]).value.Num?
  }

  function ValueAt(m: MathLib, eq: Equation, vars: Bindings, cs: seq<string>, j: nat): real
    requires NumberAt(m, eq, vars, cs, j)
  {
    EvalComponent(m, eq, vars, cs[j]).value.x
  }

  /** The operand at position `j` lets the fold go on: it is a number, and not a zero divisor. */
  predicate Clean(m: MathLib, eq: Equation, vars: Bindings, cs: seq<string>, j: nat) {
    NumberAt(m, eq, vars, cs, j) && (j > 0 && cs[j - 1] == "/" ==> ValueAt(m, eq, vars, cs, j) != 0.0)
  }

  /** Every operand at an even position in `(lo, hi)` is clean. */
  predicate CleanBetween(m: MathLib, eq: Equation, vars: Bindings, cs: seq<string>, lo: int, hi: int) {
    forall j: nat :: lo < j < hi && j % 2 == 0 ==> Clean(m, eq, vars, cs, j)
  }

  /** The operand values after operator position `i`, in order. */
  function Operands(m: MathLib, eq: Equation, vars: Bindings, cs: seq<string>, i: nat): (vs: seq<real>)
    requires CleanBetween(m, eq, vars, cs, i, |cs|) && i % 2 == 1
    ensures |vs| == |Ops(cs, i)|
    decreases |cs| - i
  {
    if i + 1 >= |cs| then []
    else
      assert Clean(m, eq, vars, cs, i + 1);
      [ValueAt(m, eq, vars, cs, i + 1)] + Operands(m, eq, vars, cs, i + 2)
  }

  /** For each operator from position `i` on: `true` for `*`, `false` for `/`. */
  function Ops(cs: seq<string>, i: nat): seq<bool>
    decreases |cs| - i
  {
    if i + 1 >= |cs| then [] else [cs[i] == "*"] + Ops(cs, i + 2)
  }

  lemma {:induction false} OperandsDivisors(m: MathLib, eq: Equation, vars: Bindings, cs: seq<string>, i: nat)
    requires Alternating(cs) && CleanBetween(m, eq, vars, cs, i, |cs|) && i % 2 == 1
    ensures NonZeroDivisors(Operands(m, eq, vars, cs, i), Ops(cs, i))
    decreases |cs| - i
  {
    if i + 1 < |cs| {
      assert Clean(m, eq, vars, cs, i + 1);
      OperandsDivisors(m, eq, vars, cs, i + 2);
      var vs := Operands(m, eq, vars, cs, i);
      var ops := Ops(cs, i);
      assert vs[1..] == Operands(m, eq, vars, cs, i + 2);
      assert ops[1..] == Ops(cs, i + 2);
      assert !ops[0] ==> cs[i] == "/";
    }
  }

  // A left fold over numbers and its closed form, with no evaluation involved.

  predicate NonZeroDivisors(vs: seq<real>, times: seq<bool>) {
    |vs| == |times| && forall k :: 0 <= k < |vs| && !times[k] ==> vs[k] != 0.0
  }

  /** One step of the fold: multiply by `v`, or divide by it. */
  function Step(a: real, times: bool, v: real): real
    requires times || v != 0.0
  {
    if times then a * v else a / v
  }

  /** Multiply or divide `a` by each value in turn. */
  function LeftFold(a: real, vs: seq<real>, times: seq<bool>): real
    requires NonZeroDivisors(vs, times)
    decreases |vs|
  {
    if |vs| == 0 then a
    else
      DivisorsTail(vs, times);
      LeftFold(Step(a, times[0], vs[0]), vs[1..], times[1..])
  }

  lemma DivisorsTail(vs: seq<real>, times: seq<bool>)
    requires NonZeroDivisors(vs, times) && |vs| > 0
    ensures NonZeroDivisors(vs[1..], times[1..])
  {
    forall k | 0 <= k < |vs| - 1 && !times[1..][k] ensures vs[1..][k] != 0.0 {
      assert times[1..][k] == times[k + 1] && vs[1..][k] == vs[k + 1];
    }
  }

  /** From operator position `i` on, with no obstacle ahead, the fold of lines 29-34 is the
      left fold of the operand values. */
  lemma {:induction false} FoldNumbers(m: MathLib, eq: Equation, vars: Bindings, cs: seq<string>, i: nat, a: real)
    requires Alternating(cs) && CleanBetween(m, eq, vars, cs, i, |cs|) && i % 2 == 1
    ensures NonZeroDivisors(Operands(m, eq, vars, cs, i), Ops(cs, i))
    ensures Fold(m, eq, vars, cs, i, Num(a)) == Ok(Num(LeftFold(a, Operands(m, eq, vars, cs, i), Ops(cs, i))))
    decreases |cs| - i
  {
    OperandsDivisors(m, eq, vars, cs, i);
    if i + 1 < |cs| {
      var vs := Operands(m, eq, vars, cs, i);
      var ops := Ops(cs, i);
      assert vs[1..] == Operands(m, eq, vars, cs, i + 2);
      assert ops[1..] == Ops(cs, i + 2);
      FoldStep(m, eq, vars, cs, i, a);
      FoldNumbers(m, eq, vars, cs, i + 2, Step(a, ops[0], vs[0]));
    }
  }

  /** One round of lines 29-34 on clean operands. */
  lemma FoldStep(m: MathLib, eq: Equation, vars: Bindings, cs: seq<string>, i: nat, a: real)
    requires Alternating(cs) && i % 2 == 1 && i + 1 < |cs| && Clean(m, eq, vars, cs, i + 1)
    ensures cs[i] == "/" ==> ValueAt(m, eq, vars, cs, i + 1) != 0.0
    ensures Fold(m, eq, vars, cs, i, Num(a))
            == Fold(m, eq, vars, cs, i + 2, Num(Step(a, cs[i] == "*", ValueAt(m, eq, vars, cs, i + 1))))
  {
    assert cs[i] == "*" || cs[i] == "/";
    var v := ValueAt(m, eq, vars, cs, i + 1);
    if cs[i] == "*" {
      FoldMulStep(m, eq, vars, cs, i, a, v);
    } else {
      FoldDivStep(m, eq, vars, cs, i, a, v);
    }
  }

  lemma FoldMulStep(m: MathLib, eq: Equation, vars: Bindings, cs: seq<string>, i: nat, a: real, v: real)
    requires i + 1 < |cs| && cs[i] == "*" && EvalComponent(m, eq, vars, cs[i + 1]) == Ok(Num(v))
    ensures Fold(m, eq, vars, cs, i, Num(a)) == Fold(m, eq, vars, cs, i + 2, Num(Step(a, true, v)))
  {
    assert Mul(Num(a), Num(v)).value == Num(Step(a, true, v));
  }

  lemma FoldDivStep(m: MathLib, eq: Equation, vars: Bindings, cs: seq<string>, i: nat, a: real, v: real)
    requires i + 1 < |cs| && cs[i] == "/" && EvalComponent(m, eq, vars, cs[i + 1]) == Ok(Num(v)) && v != 0.0
    ensures Fold(m, eq, vars, cs, i, Num(a)) == Fold(m, eq, vars, cs, i + 2, Num(Step(a, false, v)))
  {
    assert Div(Num(a), Num(v)).value == Num(Step(a, false, v));
  }

  /** Lines 28-36: when every operand is a number and no divisor is zero, a term is its first
      operand multiplied or divided by each later operand in turn, left to right, and negated
      when the term is negative. */
  lemma TermFold(m: MathLib, eq: Equation, vars: Bindings, t: Term)
    requires CleanBetween(m, eq, vars, SplitComponents(t.text), -1, |SplitComponents(t.text)|)
    ensures var cs := SplitComponents(t.text);
            NumberAt(m, eq, vars, cs, 0) && CleanBetween(m, eq, vars, cs, 1, |cs|)
    ensures var cs := SplitComponents(t.text);
            var vs := Operands(m, eq, vars, cs, 1);
            var ops := Ops(cs, 1);
            NonZeroDivisors(vs, ops)
            && var q := LeftFold(ValueAt(m, eq, vars, cs, 0), vs, ops);
               EvalTerm(m, eq, vars, t) == Ok(if t.positive then q else -q)
  {
    var cs := SplitComponents(t.text);
    FoldOfClean(m, eq, vars, cs);
    var a := ValueAt(m, eq, vars, cs, 0);
    var q := LeftFold(a, Operands(m, eq, vars, cs, 1), Ops(cs, 1));
    TermOfFold(m, eq, vars, t, a, q);
  }

  /** A component list with only clean operands folds from its first operand's value. */
  lemma FoldOfClean(m: MathLib, eq: Equation, vars: Bindings, cs: seq<string>)
    requires Alternating(cs) && CleanBetween(m, eq, vars, cs, -1, |cs|)
    ensures NumberAt(m, eq, vars, cs, 0) && CleanBetween(m, eq, vars, cs, 1, |cs|)
    ensures EvalComponent(m, eq, vars, cs[0]) == Ok(Num(ValueAt(m, eq, vars, cs, 0)))
    ensures NonZeroDivisors(Operands(m, eq, vars, cs, 1), Ops(cs, 1))
    ensures Fold(m, eq, vars, cs, 1, Num(ValueAt(m, eq, vars, cs, 0)))
            == Ok(Num(LeftFold(ValueAt(m, eq, vars, cs, 0), Operands(m, eq, vars, cs, 1), Ops(cs, 1))))
  {
    assert Clean(m, eq, vars, cs, 0);
    FoldNumbers(m, eq, vars, cs, 1, ValueAt(m, eq, vars, cs, 0));
  }

  lemma TermOfFold(m: MathLib, eq: Equation, vars: Bindings, t: Term, a: real, q: real)
    requires EvalComponent(m, eq, vars, SplitComponents(t.text)[0]) == Ok(Num(a))
    requires Fold(m, eq, vars, SplitComponents(t.text), 1, Num(a)) == Ok(Num(q))
    ensures EvalTerm(m, eq, vars, t) == Ok(if t.positive then q else -q)
  {
    var r := EvalTerm(m, eq, vars, t);
    assert r == Ok(if t.positive then q else -q);
  }

  /** The error the fold stops with at an operand that is not clean: its own error, the
      TypeError of computing with `None`, or the zero divisor. */
  function Obstacle(m: MathLib, eq: Equation, vars: Bindings, cs: seq<string>, j: nat): Err
    requires j < |cs| && !Clean(m, eq, vars, cs, j)
  {
    var e := EvalComponent(m, eq, vars, cs[j]);
    if e.Fail? then e.error else if e.value.NoValue? then Crash else ValueUndefined
  }

  lemma {:induction false} FoldStops(m: MathLib, eq: Equation, vars: Bindings, cs: seq<string>, i: nat, a: real, j: nat)
    requires Alternating(cs) && i % 2 == 1 && i < j < |cs| && j % 2 == 0
    requires CleanBetween(m, eq, vars, cs, i, j) && !Clean(m, eq, vars, cs, j)
    ensures Fold(m, eq, vars, cs, i, Num(a)) == Fail(Obstacle(m, eq, vars, cs, j))
    decreases j - i
  {
    assert cs[i] == "*" || cs[i] == "/";
    if j > i + 1 {
      assert Clean(m, eq, vars, cs, i + 1);
      var v := ValueAt(m, eq, vars, cs, i + 1);
      if cs[i] == "*" {
        FoldMulStep(m, eq, vars, cs, i, a, v);
        FoldStops(m, eq, vars, cs, i + 2, Step(a, true, v), j);
      } else {
        FoldDivStep(m, eq, vars, cs, i, a, v);
        FoldStops(m, eq, vars, cs, i + 2, Step(a, false, v), j);
      }
    }
  }

  /** Lines 28-34: the first operand that is not clean decides the error of the term, whatever
      the operands after it are (they are never evaluated). A leading operand that evaluates to
      `None` is excluded here: the fold still evaluates the next operand before the TypeError. */
  lemma TermStops(m: MathLib, eq: Equation, vars: Bindings, t: Term, j: nat)
    requires var cs := SplitComponents(t.text);
             && j < |cs| && j % 2 == 0
             && CleanBetween(m, eq, vars, cs, -1, j) && !Clean(m, eq, vars, cs, j)
             && (j == 0 ==> EvalComponent(m, eq, vars, cs[0]).Fail?)
    ensures EvalTerm(m, eq, vars, t) == Fail(Obstacle(m, eq, vars, SplitComponents(t.text), j))
  {
    var cs := SplitComponents(t.text);
    if j > 0 {
      assert Clean(m, eq, vars, cs, 0);
      FoldStops(m, eq, vars, cs, 1, ValueAt(m, eq, vars, cs, 0), j);
    }
  }

  /** Lines 33-39: a term whose fold reaches a divisor that evaluates to 0, with every operand
      before it clean, has no value: the ZeroDivisionError becomes ValueUndefined. */
  lemma ZeroDivisor(m: MathLib, eq: Equation, vars: Bindings, t: Term, j: nat)
    requires var cs := SplitComponents(t.text);
             && 0 < j < |cs| && j % 2 == 0 && cs[j - 1] == "/"
             && CleanBetween(m, eq, vars, cs, -1, j)
             && EvalComponent(m, eq, vars, cs[j]) == Ok(Num(0.0))
    ensures EvalTerm(m, eq, vars, t) == Fail(ValueUndefined)
  {
    var cs := SplitComponents(t.text);
    assert !Clean(m, eq, vars, cs, j);
    TermStops(m, eq, vars, t, j);
  }

  // ---------------------------------------------------------------------------
  // Equation sum
  // ---------------------------------------------------------------------------

  function Sum(vs: seq<real>): real
    decreases |vs|
  {
    if |vs| == 0 then 0.0 else vs[0] + Sum(vs[1..])
  }

  /** The results of the terms of `eq`, in order. */
  function TermResults(m: MathLib, eq: Equation, vars: Bindings): (rs: seq<Result<real>>)
    ensures |rs| == |eq.terms|
    ensures forall j :: 0 <= j < |rs| ==> rs[j] == EvalTerm(m, eq, vars, eq.terms[j])
  {
    seq(|eq.terms|, j requires 0 <= j < |eq.terms| => EvalTerm(m, eq, vars, eq.terms[j]))
  }

  /** Add results to `acc` in order; the first failure is the outcome. */
  function SumAll(rs: seq<Result<real>>, acc: real): Result<real>
    decreases |rs|
  {
    if |rs| == 0 then Ok(acc)
    else
      var v :- rs[0];
      SumAll(rs[1..], acc + v)
  }

  lemma {:induction false} SumTermsIsSumAll(m: MathLib, eq: Equation, vars: Bindings, k: nat, acc: real)
    requires k <= |eq.terms|
    ensures SumTerms(m, eq, vars, k, acc) == SumAll(TermResults(m, eq, vars)[k..], acc)
    decreases |eq.terms| - k
  {
    var rs := TermResults(m, eq, vars);
    if k < |eq.terms| {
      var r := EvalTerm(m, eq, vars, eq.terms[k]);
      assert rs[k..][0] == r;
      assert rs[k..][1..] == rs[k + 1..];
      if r.Ok? {
        SumTermsIsSumAll(m, eq, vars, k + 1, acc + r.value);
        assert SumTerms(m, eq, vars, k, acc) == SumTerms(m, eq, vars, k + 1, acc + r.value);
      } else {
        assert SumTerms(m, eq, vars, k, acc) == Fail(r.error);
      }
    }
  }

  lemma {:induction false} SumAllValues(rs: seq<Result<real>>, vs: seq<real>, acc: real)
    requires |rs| == |vs| && forall j :: 0 <= j < |rs| ==> rs[j] == Ok(vs[j])
    ensures SumAll(rs, acc) == Ok(acc + Sum(vs))
    decreases |rs|
  {
    if |rs| > 0 {
      SumAllValues(rs[1..], vs[1..], acc + vs[0]);
    }
  }

  lemma {:induction false} SumAllStops(rs: seq<Result<real>>, acc: real, j: nat)
    requires j < |rs| && rs[j].Fail? && forall i :: 0 <= i < j ==> rs[i].Ok?
    ensures SumAll(rs, acc) == Fail(rs[j].error)
    decreases j
  {
    if j > 0 {
      assert rs[1..][j - 1] == rs[j];
      SumAllStops(rs[1..], acc + rs[0].value, j - 1);
    }
  }

  /** Lines 132-135: when every term has a value, the equation's value is their sum. */
  lemma EquationSum(m: MathLib, eq: Equation, vars: Bindings, vs: seq<real>)
    requires |vs| == |eq.terms|
    requires forall j :: 0 <= j < |vs| ==> EvalTerm(m, eq, vars, eq.terms[j]) == Ok(vs[j])
    ensures EvalEquation(m, eq, vars) == Ok(Sum(vs))
  {
    var rs := TermResults(m, eq, vars);
    SumTermsIsSumAll(m, eq, vars, 0, 0.0);
    assert rs[0..] == rs;
    SumAllValues(rs, vs, 0.0);
  }

  /** Lines 133-137: the first term that fails makes the equation fail with that term's error
      (a ValueUndefined included), and the terms after it are not evaluated. */
  lemma EquationStops(m: MathLib, eq: Equation, vars: Bindings, j: nat)
    requires j < |eq.terms|
    requires forall i :: 0 <= i < j ==> EvalTerm(m, eq, vars, eq.terms[i]).Ok?
    ensures EvalTerm(m, eq, vars, eq.terms[j]).Fail? ==>
              EvalEquation(m, eq, vars) == Fail(EvalTerm(m, eq, vars, eq.terms[j]).error)
  {
    var rs := TermResults(m, eq, vars);
    SumTermsIsSumAll(m, eq, vars, 0, 0.0);
    assert rs[0..] == rs;
    if rs[j].Fail? {
      SumAllStops(rs, 0.0, j);
    }
  }

  // ---------------------------------------------------------------------------
  // Component dispatch
  // ---------------------------------------------------------------------------

  /** Evaluate the base, then the exponent, then raise: the first failure wins. */
  function PowerOf(m: MathLib, base: Result<Val>, exponent: Result<Val>): Result<Val> {
    var b :- base;
    var e :- exponent;
    Power(m, b, e)
  }

  /** Lines 42-46: a component with a `^` is a power before anything else, of the fields before
      and after its first `^`; whatever follows a second `^` is dropped, so `a^b^c` is `a^b`. */
  lemma PowerCase(m: MathLib, eq: Equation, vars: Bindings, a: string, b: string, rest: string)
    requires '^' !in a && '^' !in b && (|rest| == 0 || rest[0] == '^')
    ensures EvalComponent(m, eq, vars, a + "^" + b + rest)
            == PowerOf(m, EvalComponent(m, eq, vars, a), EvalComponent(m, eq, vars, b))
  {
    var comp := a + "^" + b + rest;
    assert comp[|a|] == '^';
    SplitFirstTwo(a, b, rest, '^');
  }

  /** Lines 47-57: `@d` followed by an operand without `^` evaluates the operand first (its
      error wins); then codes 0-2 are the sine, cosine and tangent of the operand read in
      degrees, code 3 is its absolute value, codes 4-9 give `None`, and a `None` operand of a
      code below 4 is a TypeError. */
  lemma FunctionCall(m: MathLib, eq: Equation, vars: Bindings, d: nat, x: string)
    requires d < 10 && '^' !in x
    ensures var o := EvalComponent(m, eq, vars, x);
            var r := EvalComponent(m, eq, vars, FunctionToken(d) + x);
            && (o.Fail? ==> r == Fail(o.error))
            && (o.Ok? && d >= 4 ==> r == Ok(NoValue))
            && (o == Ok(NoValue) && d < 4 ==> r == Fail(Crash))
            && (o.Ok? && o.value.Num? ==>
                  && (d == 0 ==> r == Ok(Num(m.sin(Radians(m, o.value.x)))))
                  && (d == 1 ==> r == Ok(Num(m.cos(Radians(m, o.value.x)))))
                  && (d == 2 ==> r == Ok(Num(m.tan(Radians(m, o.value.x)))))
                  && (d == 3 ==> r == Ok(Num(Abs(o.value.x)))))
  {
    var comp := FunctionToken(d) + x;
    assert comp[0] == '@' && comp[1] == DigitChar(d) && comp[2..] == x;
    assert '^' !in comp by {
      forall i | 0 <= i < |comp| ensures comp[i] != '^' {
        if i >= 2 {
          assert comp[i] == x[i - 2];
        }
      }
    }
  }

  /** The value of a sub-equation as a component value. */
  function AsComponent(r: Result<real>): Result<Val> {
    var v :- r;
    Ok(Num(v))
  }

  lemma RefTokenShape(k: string)
    requires AllDigits(k)
    ensures '^' !in ['{'] + k && '^' !in ['{', '-'] + k
  {
    forall i | 0 <= i < |k| ensures k[i] != '^' {
      assert IsDigit(k[i]);
    }
  }

  /** Lines 58-59 and 71-74: `{k` is the value of sub-equation `k`, and `{-n` of the `n`-th
      from the end, as Python list indexing reads them; an index outside the list is an
      IndexError. */
  lemma Reference(m: MathLib, eq: Equation, vars: Bindings, n: nat)
    ensures n < |eq.subs| ==>
              EvalComponent(m, eq, vars, RefToken(n)) == AsComponent(EvalEquation(m, eq.subs[n], vars))
    ensures n >= |eq.subs| ==> EvalComponent(m, eq, vars, RefToken(n)) == Fail(Crash)
    ensures 1 <= n <= |eq.subs| ==>
              EvalComponent(m, eq, vars, "{-" + Decimal(n))
              == AsComponent(EvalEquation(m, eq.subs[|eq.subs| - n], vars))
    ensures n > |eq.subs| ==> EvalComponent(m, eq, vars, "{-" + Decimal(n)) == Fail(Crash)
  {
    ParseIntDecimal(n);
    RefTokenShape(Decimal(n));
    RefForward(m, eq, vars, n);
    RefBackward(m, eq, vars, n);
  }

  lemma RefForward(m: MathLib, eq: Equation, vars: Bindings, n: nat)
    requires ParseInt(Decimal(n)) == Some(n) && '^' !in ['{'] + Decimal(n)
    ensures SubEquation(m, eq, vars, RefToken(n))
            == if n < |eq.subs| then EvalEquation(m, eq.subs[n], vars) else Fail(Crash)
    ensures EvalComponent(m, eq, vars, RefToken(n)) == AsComponent(SubEquation(m, eq, vars, RefToken(n)))
  {
    assert RefToken(n)[1..] == Decimal(n);
    RefComponent(m, eq, vars, RefToken(n));
  }

  lemma RefBackward(m: MathLib, eq: Equation, vars: Bindings, n: nat)
    requires ParseInt("-" + Decimal(n)) == Some(-(n as int)) && '^' !in ['{', '-'] + Decimal(n)
    ensures 1 <= n ==>
              SubEquation(m, eq, vars, "{-" + Decimal(n))
              == if n <= |eq.subs| then EvalEquation(m, eq.subs[|eq.subs| - n], vars) else Fail(Crash)
    ensures EvalComponent(m, eq, vars, "{-" + Decimal(n))
            == AsComponent(SubEquation(m, eq, vars, "{-" + Decimal(n)))
  {
    var neg := "{-" + Decimal(n);
    assert neg == ['{', '-'] + Decimal(n);
    assert neg[1..] == "-" + Decimal(n);
    var li := ListIndex(-(n as int), |eq.subs|);
    assert 1 <= n ==> li == if n <= |eq.subs| then Some(|eq.subs| - n) else None;
    assert SubEquation(m, eq, vars, neg)
           == match li case None => Fail(Crash) case Some(k) => EvalEquation(m, eq.subs[k], vars);
    RefComponent(m, eq, vars, neg);
  }

  lemma RefComponent(m: MathLib, eq: Equation, vars: Bindings, comp: string)
    requires |comp| >= 1 && comp[0] == '{' && '^' !in comp
    ensures EvalComponent(m, eq, vars, comp) == AsComponent(SubEquation(m, eq, vars, comp))
  {
  }

  /** Lines 60-64: a component made only of letters is looked up among the bindings, and an
      unbound name is reported by name. */
  lemma Variable(m: MathLib, eq: Equation, vars: Bindings, name: string)
    requires IsAlpha(name)
    ensures name in vars ==> EvalComponent(m, eq, vars, name) == Ok(Num(vars[name]))
    ensures name !in vars ==> EvalComponent(m, eq, vars, name) == Fail(UndefinedVariable(name))
  {
    assert IsLetter(name[0]);
    assert '^' !in name by {
      forall i | 0 <= i < |name| ensures name[i] != '^' {
        assert IsLetter(name[i]);
      }
    }
  }

  /** Lines 65-67: a decimal literal is read as a number, and is never taken for a power, a
      call, a reference or a variable. */
  lemma Number(m: MathLib, eq: Equation, vars: Bindings, comp: string)
    ensures ParseNumber(comp).Some? ==> EvalComponent(m, eq, vars, comp) == Ok(Num(ParseNumber(comp).value))
  {
    NumberShape(comp);
    if ParseNumber(comp).Some? {
      assert '^' !in comp by {
        forall i | 0 <= i < |comp| ensures comp[i] != '^' {
          assert IsDigit(comp[i]) || comp[i] == '.' || comp[i] == '-' || comp[i] == '+';
        }
      }
      assert IsDigit(comp[0]) || comp[0] == '.' || comp[0] == '-' || comp[0] == '+';
    }
  }

  /** Lines 65-69: any other non-empty component that `float()` rejects is an invalid
      component, and an empty one (an operand missing around an operator) is an IndexError. */
  lemma Invalid(m: MathLib, eq: Equation, vars: Bindings, comp: string)
    requires '^' !in comp && (|comp| == 0 || (comp[0] != '@' && comp[0] != '{' && !IsAlpha(comp)))
    ensures |comp| == 0 ==> EvalComponent(m, eq, vars, comp) == Fail(Crash)
    ensures |comp| > 0 ==> (EvalComponent(m, eq, vars, comp) == Fail(InvalidComponent) <==> ParseNumber(comp).None?)
  {
  }

  /** Line 69 as written: the literal `?` is reported as a TypeError from building the
      exception, where an InvalidComponent was meant. */
  lemma LiteralAsWrittenCrashes()
    ensures LiteralAsWritten("?") == Fail(Crash)
    ensures Literal("?") == Fail(InvalidComponent)
  {
    assert !IsDigit('?');
  }
}

=== FILE: numbers.dfy ===
/** Decimal digits: the `%i` formatting used to build reference tokens, and the parts of
    Python's `int()` and `float()` that read them back. */
module Numbers {
  import opened Results
  import opened Text

  predicate IsDigit(c: char) {
    '0' <= c <= '9'
  }

  function DigitValue(c: char): nat
    requires IsDigit(c)
  {
    (c as int) - ('0' as int)
  }

  function DigitChar(d: nat): (c: char)
    requires d < 10
    ensures IsDigit(c) && DigitValue(c) == d
  {
    (('0' as int) + d) as char
  }

  predicate AllDigits(s: string) {
    forall i :: 0 <= i < |s| ==> IsDigit(s[i])
  }

  /** The number a string of decimal digits denotes (most significant digit first). */
  function DigitsValue(s: string): nat
    requires AllDigits(s)
    decreases |s|
  {
    if |s| == 0 then 0 else 10 * DigitsValue(s[..|s| - 1]) + DigitValue(s[|s| - 1])
  }

  function Pow10(k: nat): (r: nat)
    ensures r > 0
  {
    if k == 0 then 1 else 10 * Pow10(k - 1)
  }

  /** `"%i" % n` for a natural number: its shortest decimal form, which reads back as `n`. */
  function Decimal(n: nat): (r: string)
    ensures |r| >= 1 && AllDigits(r)
    ensures DigitsValue(r) == n
    ensures r[0] == '0' ==> |r| == 1
    decreases n
  {
    if n < 10 then [DigitChar(n)]
    else
      var r := Decimal(n / 10) + [DigitChar(n % 10)];
      assert r[..|r| - 1] == Decimal(n / 10);
      r
  }

  /** Python `int(s)` on text without white space: an optional sign and at least one digit;
      anything else is a ValueError, reported as `None`. */
  function ParseInt(s: string): Option<int> {
    if |s| >= 1 && (s[0] == '-' || s[0] == '+') then
      if |s| >= 2 && AllDigits(s[1..]) then
        Some(if s[0] == '-' then -(DigitsValue(s[1..]) as int) else DigitsValue(s[1..]))
      else None
    else if |s| >= 1 && AllDigits(s) then Some(DigitsValue(s))
    else None
  }

  /** Reading back a formatted index gives the index. */
  lemma ParseIntDecimal(n: nat)
    ensures ParseInt(Decimal(n)) == Some(n)
    ensures ParseInt("-" + Decimal(n)) == Some(-(n as int))
  {
    var d := Decimal(n);
    assert IsDigit(d[0]);
    assert ("-" + d)[1..] == d;
  }

  /** The value of the digits after a decimal point: `f / 10^|f|`. */
  function FractionalPart(frac: string): real
    requires AllDigits(frac)
  {
    DigitsValue(frac) as real / Pow10(|frac|) as real
  }

  /** The value of `whole.frac`. */
  function Fraction(whole: string, frac: string): real
    requires AllDigits(whole) && AllDigits(frac)
  {
    DigitsValue(whole) as real + FractionalPart(frac)
  }

  /** The unsigned part of a decimal literal: digits with at most one `.` and at least one
      digit overall (`5`, `5.`, `.5`, `5.25`). */
  function UnsignedDecimal(body: string): Option<real> {
    if '.' in body then
      var i := FirstIndex(body, '.');
      var whole := body[..i];
      var frac := body[i + 1..];
      if AllDigits(whole) && AllDigits(frac) && |whole| + |frac| >= 1 then
        Some(Fraction(whole, frac))
      else None
    else if |body| >= 1 && AllDigits(body) then Some(DigitsValue(body) as real)
    else None
  }

  /** Python `float(s)` restricted to plain decimal literals with an optional sign;
      `None` is the ValueError for everything else. */
  function ParseNumber(s: string): Option<real> {
    if |s| >= 1 && (s[0] == '-' || s[0] == '+') then
      match UnsignedDecimal(s[1..])
      case None => None
      case Some(v) => Some(if s[0] == '-' then -v else v)
    else UnsignedDecimal(s)
  }

  /** A formatted natural number reads back as the same real number. */
  lemma ParseNumberDecimal(n: nat)
    ensures ParseNumber(Decimal(n)) == Some(n as real)
  {
    var d := Decimal(n);
    assert IsDigit(d[0]);
    assert '.' !in d by {
      forall i | 0 <= i < |d| ensures d[i] != '.' {
        assert IsDigit(d[i]);
      }
    }
  }

  lemma DigitsHaveNoDot(d: string)
    requires AllDigits(d)
    ensures '.' !in d
  {
    forall i | 0 <= i < |d| ensures d[i] != '.' {
      assert IsDigit(d[i]);
    }
  }

  /** A decimal fraction `w.f` reads back as `w + f / 10^|f|`: `%i` followed by a point and
      digits is a literal of that value. */
  lemma ParseNumberFraction(whole: nat, frac: string)
    requires AllDigits(frac)
    ensures ParseNumber(Decimal(whole) + "." + frac) == Some(whole as real + FractionalPart(frac))
  {
    ParseDigitsDotDigits(Decimal(whole), frac);
  }

  lemma ParseDigitsDotDigits(d: string, frac: string)
    requires |d| >= 1 && AllDigits(d) && AllDigits(frac)
    ensures ParseNumber(d + "." + frac) == Some(Fraction(d, frac))
  {
    var s := d + "." + frac;
    assert s[..|d|] == d;
    DigitsHaveNoDot(d);
    FirstIndexIs(s, '.', |d|);
    assert s[|d| + 1..] == frac;
    UnsignedAt(s, |d|);
    assert s[0] == d[0] && IsDigit(s[0]);
  }

  lemma UnsignedAt(body: string, i: nat)
    requires i < |body| && body[i] == '.' && FirstIndex(body, '.') == i && |body| >= 2
    requires AllDigits(body[..i]) && AllDigits(body[i + 1..])
    ensures UnsignedDecimal(body) == Some(Fraction(body[..i], body[i + 1..]))
  {
    assert '.' in body;
  }

  /** An unsigned literal is made of digits and `.`, and holds at least one digit. */
  lemma UnsignedShape(body: string)
    requires UnsignedDecimal(body).Some?
    ensures forall j :: 0 <= j < |body| ==> IsDigit(body[j]) || body[j] == '.'
    ensures exists j :: 0 <= j < |body| && IsDigit(body[j])
  {
    if '.' in body {
      var i := FirstIndex(body, '.');
      var whole := body[..i];
      var frac := body[i + 1..];
      forall j | 0 <= j < |body| ensures IsDigit(body[j]) || body[j] == '.' {
        if j < i {
          assert body[j] == whole[j];
        } else if j > i {
          assert body[j] == frac[j - i - 1];
        }
      }
      if |whole| >= 1 {
        assert IsDigit(body[0]);
      } else {
        assert IsDigit(body[i + 1]);
      }
    } else {
      assert IsDigit(body[0]);
    }
  }

  /** Every character of a parsed literal is a digit, a `.` or a leading sign, and one is a
      digit; so a literal is never taken for a power, a function call, a reference or a
      variable. */
  lemma NumberShape(s: string)
    ensures ParseNumber(s).Some? ==>
              && (forall i :: 0 <= i < |s| ==> IsDigit(s[i]) || s[i] == '.' || (i == 0 && (s[i] == '-' || s[i] == '+')))
              && !IsAlpha(s)
  {
    var signed := |s| >= 1 && (s[0] == '-' || s[0] == '+');
    var k: nat := if signed then 1 else 0;
    var body := s[k..];
    if UnsignedDecimal(body).Some? {
      UnsignedShape(body);
      var j :| 0 <= j < |body| && IsDigit(body[j]);
      assert s[k + j] == body[j];
      forall i | k <= i < |s| ensures IsDigit(s[i]) || s[i] == '.' {
        assert s[i] == body[i - k];
      }
    }
  }
}

=== FILE: results.dfy ===
/** Failure-compatible wrappers shared by construction and evaluation. */
module Results {

  datatype Option<+T> = None | Some(value: T)

  /** The ways building or evaluating an equation can fail.
      The first three are the exception classes of equation.py; `Crash` stands for every
      other Python exception the code can raise on malformed input: an IndexError from
      `comp[0]`, `terms[0][0]`, `bracket_indices[-1]` or `sub_equations[index]`, a ValueError
      from `int(...)` or from `**`, and a TypeError from using the implicit `None` that an
      unknown function code returns. */
  datatype Err =
    | InvalidComponent
    | UndefinedVariable(name: string)
    | ValueUndefined
    | Crash

  datatype Result<+T> = Ok(value: T) | Fail(error: Err) {

    predicate IsFailure() {
      Fail?
    }

    function PropagateFailure<U>(): Result<U>
      requires Fail?
    {
      Fail(error)
    }

    function Extract(): T
      requires Ok?
    {
      value
    }
  }
}

=== FILE: text.dfy ===
/** The Python string operations the equation code relies on: `str.isalpha`,
    `str.replace` and `str.split` with a one-character separator. */
module Text {

  predicate IsLetter(c: char) {
    'a' <= c <= 'z' || 'A' <= c <= 'Z'
  }

  /** Python 2 `str.isalpha` on a byte string: non-empty and every character an ASCII letter. */
  predicate IsAlpha(s: string) {
    |s| > 0 && forall i :: 0 <= i < |s| ==> IsLetter(s[i])
  }

  /** `w` appears in `s` starting at index `i`. */
  predicate OccursAt(w: string, s: string, i: int) {
    0 <= i && i + |w| <= |s| && s[i..i + |w|] == w
  }

  predicate Occurs(w: string, s: string) {
    exists i :: 0 <= i <= |s| && OccursAt(w, s, i)
  }

  lemma SliceOfSlice(s: string, a: nat, b: nat, i: nat, j: nat)
    requires a <= b <= |s| && i <= j <= b - a
    ensures s[a..b][i..j] == s[a + i..a + j]
  {
    forall k | 0 <= k < j - i
      ensures s[a..b][i..j][k] == s[a + i..a + j][k]
    {
    }
  }

  lemma OccursInSlice(w: string, s: string, a: nat, b: nat)
    requires a <= b <= |s|
    ensures Occurs(w, s[a..b]) ==> Occurs(w, s)
  {
    if Occurs(w, s[a..b]) {
      var i :| 0 <= i <= b - a && OccursAt(w, s[a..b], i);
      SliceOfSlice(s, a, b, i, i + |w|);
      assert OccursAt(w, s, a + i);
    }
  }

  /** A suffix is a piece of the string. */
  lemma OccursInSuffix(s: string, a: nat)
    requires a <= |s|
    ensures forall w :: Occurs(w, s[a..]) ==> Occurs(w, s)
  {
    assert s[a..|s|] == s[a..];
    forall w | Occurs(w, s[a..]) ensures Occurs(w, s) {
      OccursInSlice(w, s, a, |s|);
    }
  }

  lemma OccursInTail(w: string, x: string, y: string, i: int)
    requires OccursAt(w, x + y, i) && i >= |x|
    ensures OccursAt(w, y, i - |x|)
  {
    var xy := x + y;
    assert xy[|x|..|xy|] == y;
    SliceOfSlice(xy, |x|, |xy|, i - |x|, i - |x| + |w|);
  }

  // ---------------------------------------------------------------------------
  // str.replace
  // ---------------------------------------------------------------------------

  /** Python `s.replace(pat, rep)` for a non-empty pattern: scanning left to right, each
      occurrence of `pat` that does not overlap an earlier replaced one becomes `rep`. */
  function ReplaceAll(s: string, pat: string, rep: string): string
    requires |pat| > 0
    decreases |s|
  {
    if |s| == 0 then []
    else if pat <= s then rep + ReplaceAll(s[|pat|..], pat, rep)
    else [s[0]] + ReplaceAll(s[1..], pat, rep)
  }

  /** Nothing changes when the pattern does not occur. */
  lemma {:induction false} ReplaceAllAbsent(s: string, pat: string, rep: string)
    requires |pat| > 0
    ensures !Occurs(pat, s) ==> ReplaceAll(s, pat, rep) == s
    decreases |s|
  {
    if |s| > 0 {
      if pat <= s {
        assert OccursAt(pat, s, 0);
      } else {
        OccursInSlice(pat, s, 1, |s|);
        assert s[1..|s|] == s[1..];
        ReplaceAllAbsent(s[1..], pat, rep);
        assert [s[0]] + s[1..] == s;
      }
    }
  }

  /** The text before the first occurrence is kept, that occurrence becomes `rep`, and the
      scan resumes after it (so replaced occurrences never overlap). Together with
      `ReplaceAllAbsent` this determines `ReplaceAll` completely. */
  lemma {:induction false} ReplaceAllFirst(s: string, pat: string, rep: string, i: nat)
    requires |pat| > 0
    requires OccursAt(pat, s, i)
    requires forall j :: 0 <= j < i ==> !OccursAt(pat, s, j)
    ensures ReplaceAll(s, pat, rep) == s[..i] + rep + ReplaceAll(s[i + |pat|..], pat, rep)
    decreases i
  {
    if i == 0 {
      assert s[..|pat|] == pat;
      assert pat <= s;
      assert s[..0] == [];
    } else {
      assert !OccursAt(pat, s, 0);
      assert !(pat <= s);
      var t := s[1..];
      FirstOccurrenceInTail(s, pat, i);
      ReplaceAllFirst(t, pat, rep, i - 1);
      ReplaceAllNoMatchStep(s, pat, rep);
      TailSlices(s, i, |pat|);
    }
  }

  lemma ReplaceAllNoMatchStep(s: string, pat: string, rep: string)
    requires |pat| > 0 && |s| > 0 && !(pat <= s)
    ensures ReplaceAll(s, pat, rep) == [s[0]] + ReplaceAll(s[1..], pat, rep)
  {
  }

  lemma TailSlices(s: string, i: nat, n: nat)
    requires 0 < i && i + n <= |s|
    ensures s[1..][i - 1 + n..] == s[i + n..]
    ensures [s[0]] + s[1..][..i - 1] == s[..i]
  {
  }

  /** A replacement no longer than the pattern never lengthens the text. */
  lemma {:induction false} ReplaceAllShortens(s: string, pat: string, rep: string)
    requires |pat| > 0 && |rep| <= |pat|
    ensures |ReplaceAll(s, pat, rep)| <= |s|
    decreases |s|
  {
    if |s| > 0 {
      if pat <= s {
        ReplaceAllShortens(s[|pat|..], pat, rep);
      } else {
        ReplaceAllShortens(s[1..], pat, rep);
      }
    }
  }

  /** A first occurrence at `i > 0` is the first occurrence at `i - 1` in the tail. */
  lemma FirstOccurrenceInTail(s: string, pat: string, i: nat)
    requires |pat| > 0 && i > 0
    requires OccursAt(pat, s, i)
    requires forall j :: 0 <= j < i ==> !OccursAt(pat, s, j)
    ensures OccursAt(pat, s[1..], i - 1)
    ensures forall j :: 0 <= j < i - 1 ==> !OccursAt(pat, s[1..], j)
  {
    var t := s[1..];
    assert t[i - 1..i - 1 + |pat|] == s[i..i + |pat|];
    forall j | 0 <= j < i - 1
      ensures !OccursAt(pat, t, j)
    {
      if OccursAt(pat, t, j) {
        assert t[j..j + |pat|] == s[j + 1..j + 1 + |pat|];
        assert OccursAt(pat, s, j + 1);
      }
    }
  }

  /** `w` and `rep` cannot run into each other: the first character of `rep` is not in `w`
      and the first character of `w` is not in `rep`. */
  predicate Separated(w: string, rep: string) {
    |w| > 0 && |rep| > 0 && rep[0] !in w && w[0] !in rep
  }

  /** A prefix of the result that avoids `rep[0]` was copied verbatim from the input. */
  lemma {:induction false} ReplaceAllKeepsPrefix(t: string, pat: string, rep: string, m: nat)
    requires |pat| > 0 && |rep| > 0
    ensures m <= |ReplaceAll(t, pat, rep)| && rep[0] !in ReplaceAll(t, pat, rep)[..m]
            ==> m <= |t| && ReplaceAll(t, pat, rep)[..m] == t[..m]
    decreases |t|
  {
    var r := ReplaceAll(t, pat, rep);
    if m == 0 || |t| == 0 {
    } else if pat <= t {
      if m <= |r| {
        assert r[..m][0] == rep[0];
      }
    } else {
      var r' := ReplaceAll(t[1..], pat, rep);
      ReplaceAllKeepsPrefix(t[1..], pat, rep, m - 1);
      assert r == [t[0]] + r';
      if m <= |r| && rep[0] !in r[..m] {
        assert r[..m] == [t[0]] + r'[..m - 1];
        assert t[..m] == [t[0]] + t[1..][..m - 1];
      }
    }
  }

  /** Replacing creates no new occurrence of a string separated from the replacement. */
  lemma {:induction false} ReplaceAllAddsNoOccurrence(s: string, pat: string, rep: string, w: string)
    requires |pat| > 0 && Separated(w, rep)
    ensures Occurs(w, ReplaceAll(s, pat, rep)) ==> Occurs(w, s)
    decreases |s|
  {
    var r := ReplaceAll(s, pat, rep);
    if |s| > 0 {
      if pat <= s {
        var s' := s[|pat|..];
        var r' := ReplaceAll(s', pat, rep);
        assert r == rep + r';
        ReplaceAllAddsNoOccurrence(s', pat, rep, w);
        OccursInSlice(w, s, |pat|, |s|);
        assert s[|pat|..|s|] == s';
        forall i | 0 <= i <= |r|
          ensures OccursAt(w, r, i) ==> Occurs(w, s)
        {
          if i < |rep| {
            assert i + |w| <= |r| ==> r[i..i + |w|][0] == rep[i];
          } else if OccursAt(w, r, i) {
            OccursInTail(w, rep, r', i);
          }
        }
      } else {
        var r' := ReplaceAll(s[1..], pat, rep);
        assert r == [s[0]] + r';
        ReplaceAllKeepsPrefix(s, pat, rep, |w|);
        ReplaceAllAddsNoOccurrence(s[1..], pat, rep, w);
        OccursInSlice(w, s, 1, |s|);
        assert s[1..|s|] == s[1..];
        forall i | 0 <= i <= |r|
          ensures OccursAt(w, r, i) ==> Occurs(w, s)
        {
          if i == 0 {
            if OccursAt(w, r, 0) {
              assert r[..|w|] == w;
              assert OccursAt(w, s, 0);
            }
          } else if OccursAt(w, r, i) {
            OccursInTail(w, [s[0]], r', i);
          }
        }
      }
    }
  }

  /** After replacement the pattern is gone, provided it is separated from its replacement. */
  lemma {:induction false} ReplaceAllRemovesPattern(s: string, pat: string, rep: string)
    requires Separated(pat, rep)
    ensures !Occurs(pat, ReplaceAll(s, pat, rep))
    decreases |s|
  {
    var r := ReplaceAll(s, pat, rep);
    if |s| > 0 {
      if pat <= s {
        var r' := ReplaceAll(s[|pat|..], pat, rep);
        assert r == rep + r';
        ReplaceAllRemovesPattern(s[|pat|..], pat, rep);
        forall i | 0 <= i <= |r|
          ensures !OccursAt(pat, r, i)
        {
          if i < |rep| {
            assert i + |pat| <= |r| ==> r[i..i + |pat|][0] == rep[i];
          } else if OccursAt(pat, r, i) {
            OccursInTail(pat, rep, r', i);
          }
        }
      } else {
        var r' := ReplaceAll(s[1..], pat, rep);
        assert r == [s[0]] + r';
        ReplaceAllKeepsPrefix(s, pat, rep, |pat|);
        ReplaceAllRemovesPattern(s[1..], pat, rep);
        forall i | 0 <= i <= |r|
          ensures !OccursAt(pat, r, i)
        {
          if i == 0 {
            assert !(|pat| <= |r| && r[..|pat|] == pat);
          } else if OccursAt(pat, r, i) {
            OccursInTail(pat, [s[0]], r', i);
          }
        }
      }
    }
  }

  // ---------------------------------------------------------------------------
  // str.split with a one-character separator
  // ---------------------------------------------------------------------------

  /** Index of the first `c` in `s`. */
  function FirstIndex(s: string, c: char): (i: nat)
    requires c in s
    ensures i < |s| && s[i] == c && c !in s[..i]
  {
    if s[0] == c then 0 else 1 + FirstIndex(s[1..], c)
  }

  lemma {:induction false} FirstIndexIs(s: string, c: char, j: nat)
    requires j < |s| && s[j] == c && c !in s[..j]
    ensures FirstIndex(s, c) == j
    decreases j
  {
    if j > 0 {
      assert s[0] == s[..j][0];
      assert s[1..][..j - 1] == s[1..j];
      assert forall k :: 0 <= k < j - 1 ==> s[1..j][k] == s[..j][k + 1];
      FirstIndexIs(s[1..], c, j - 1);
    }
  }

  /** Python `s.split(c)`: the fields between separators, keeping empty ones. */
  function SplitOn(s: string, c: char): (r: seq<string>)
    ensures |r| >= 1
    ensures forall k :: 0 <= k < |r| ==> c !in r[k]
    ensures c in s <==> |r| >= 2
    ensures forall k :: 0 <= k < |r| ==> |r[k]| <= |s| && (|r| >= 2 ==> |r[k]| < |s|)
    decreases |s|
  {
    if c !in s then [s]
    else
      var i := FirstIndex(s, c);
      [s[..i]] + SplitOn(s[i + 1..], c)
  }

  /** Python `c.join(parts)`. */
  function Join(parts: seq<string>, c: char): string
    requires |parts| >= 1
  {
    if |parts| == 1 then parts[0] else parts[0] + [c] + Join(parts[1..], c)
  }

  /** Joining the fields with the separator gives back the string. */
  lemma {:induction false} JoinSplit(s: string, c: char)
    ensures Join(SplitOn(s, c), c) == s
    decreases |s|
  {
    if c in s {
      var i := FirstIndex(s, c);
      JoinSplit(s[i + 1..], c);
      assert SplitOn(s, c)[1..] == SplitOn(s[i + 1..], c);
      assert s[..i] + [c] + s[i + 1..] == s;
    }
  }

  /** Splitting a join of separator-free fields gives back the fields. */
  lemma {:induction false} SplitJoin(parts: seq<string>, c: char)
    requires |parts| >= 1
    requires forall k :: 0 <= k < |parts| ==> c !in parts[k]
    ensures SplitOn(Join(parts, c), c) == parts
    decreases |parts|
  {
    if |parts| > 1 {
      var s := Join(parts, c);
      var p := parts[0];
      assert s[..|p|] == p;
      FirstIndexIs(s, c, |p|);
      var i := FirstIndex(s, c);
      assert s[i + 1..] == Join(parts[1..], c);
      SplitJoin(parts[1..], c);
      assert [p] + parts[1..] == parts;
    }
  }

  /** Every field is a piece of the split string. */
  lemma {:induction false} OccursInField(s: string, c: char, k: nat, w: string)
    requires k < |SplitOn(s, c)|
    ensures Occurs(w, SplitOn(s, c)[k]) ==> Occurs(w, s)
    decreases |s|
  {
    if c in s && Occurs(w, SplitOn(s, c)[k]) {
      var i := FirstIndex(s, c);
      SplitOnFields(s, c, k);
      if k == 0 {
        assert Occurs(w, s[0..i]);
        OccursInSlice(w, s, 0, i);
      } else {
        assert Occurs(w, s[i + 1..]) by {
          OccursInField(s[i + 1..], c, k - 1, w);
        }
        assert Occurs(w, s[i + 1..|s|]);
        OccursInSlice(w, s, i + 1, |s|);
      }
    }
  }

  /** The fields of a split at the first separator: the text before it, then the fields of
      the rest. */
  lemma SplitOnFields(s: string, c: char, k: nat)
    requires c in s && k < |SplitOn(s, c)|
    ensures var i := FirstIndex(s, c);
            && s[0..i] == s[..i] && s[i + 1..|s|] == s[i + 1..]
            && (k == 0 ==> SplitOn(s, c)[k] == s[0..i])
            && (k > 0 ==> k - 1 < |SplitOn(s[i + 1..], c)| && SplitOn(s, c)[k] == SplitOn(s[i + 1..], c)[k - 1])
  {
  }

  /** Every field is a piece of the split string, for all fields and words at once. */
  lemma OccursInFields(s: string, c: char)
    ensures forall k, w :: 0 <= k < |SplitOn(s, c)| && Occurs(w, SplitOn(s, c)[k]) ==> Occurs(w, s)
  {
    forall k, w | 0 <= k < |SplitOn(s, c)| && Occurs(w, SplitOn(s, c)[k])
      ensures Occurs(w, s)
    {
      OccursInField(s, c, k, w);
    }
  }

  /** The first two fields of `a c b rest`, when `a` and `b` hold no `c` and `rest` is empty or
      starts a further field. */
  lemma SplitFirstTwo(a: string, b: string, rest: string, c: char)
    requires c !in a && c !in b && (|rest| == 0 || rest[0] == c)
    ensures |SplitOn(a + [c] + b + rest, c)| >= 2
    ensures SplitOn(a + [c] + b + rest, c)[0] == a
    ensures SplitOn(a + [c] + b + rest, c)[1] == b
  {
    var s := a + [c] + b + rest;
    assert s[..|a|] == a;
    FirstIndexIs(s, c, |a|);
    assert s[|a| + 1..] == b + rest;
    if |rest| > 0 {
      assert (b + rest)[..|b|] == b;
      FirstIndexIs(b + rest, c, |b|);
    } else {
      assert b + rest == b;
    }
  }
}
